=== FILE: README.md ===
# LiveFeedGBAEmulation, modelled in Dafny

The system turns a live Coinbase BTC-USD ticker stream into button presses
for a Game Boy Advance emulator (mGBA) and reads the party of Pokémon back
out of the game's save file. This project models its deterministic core as
pure functions over immutable data:

- **Window aggregation and rule tables.** Ticks are batched into time windows.
  Each closed window is reduced to metrics: percentage price change, price
  range, buys and sells, largest trade size and tick count. A threshold table
  then turns the metrics into button tokens. The repository has three
  diverging versions of this loop and table, each modelled on its own:
  - `DatafeedMapper`: the 2-second table that weights tokens by repetition and
    then shuffles them.
  - `CoinbaseMapper`: the 5-second "10-channel" table in rule order.
  - `MainMapper`: the 5-second change rule and its comma-joined message to
    the emulator.

  Each loop is a step function. A step takes the current batch and timer, one
  pull from the queue (a message or a timeout) and the clock reading `now`.
  The window length is a parameter.
- **Dispatcher bookkeeping** (`Dispatcher`, `Buttons`). The button map drops
  unknown tokens such as `SAVE`. The dispatcher keeps per-button counters and
  the bounded list of the last ten presses. It encodes each press as one
  character plus a newline. On the first press of a new day it writes the
  archive row for the day that ended.
- **Save-file reader** (`SaveFile`). It picks the active save slot from two
  little-endian save indices, reads the party count, and computes where each
  member's species id sits. It names each species from the small Pokédex
  table.

Shared pieces:
- `Feed`: messages, ticks and metrics.
- `Text`: decimal numerals, Python's `join`/`split` and Python's string
  order.
- `Wrappers`: `Option` and `Result`.

Prices are `real`. A Python exception becomes an error value:
- Where the source catches it, the tick or window is skipped.
- Where nothing catches it (coinbase_functions.py, main.py), the loop ends in
  a `Crashed` outcome.

Error handling and rule tables differ between the three loops:
- Only datafeed_to_gba_controls.py catches malformed ticks and metric errors.
  coinbase_functions.py and main.py stop on them.
- The three rule tables are modelled separately, as written.
- In main.py the `else` belongs to the `change < 0` test. So START is pressed
  once in every non-empty window, whatever the sign of the change. The model
  keeps that behaviour (`MainMapper.Rules`).

## Model

| member | source | states |
|---|---|---|
| `Feed.ParseTick` | datafeed_to_gba_controls.py:88-97 | A message becomes a tick iff its price is present and numeric and its `last_size`, when present, is numeric. A missing price is a `KeyError`, otherwise `ValueError`. The size defaults to 0 and the side is carried over. |
| `Feed.CountBuys` | datafeed_to_gba_controls.py:106 | The number of buys never exceeds the window size. |
| `Feed.CountBuysIsMultiplicity` | datafeed_to_gba_controls.py:106 | The buys are exactly the ticks whose side is the string "buy": the count is the multiplicity of that side among the window's sides. |
| `Feed.CountNonBuys` | datafeed_to_gba_controls.py:107 | Sells are exactly the ticks that are not buys, so a missing side or any side other than "buy" is a sell. |
| `Feed.DeltaPct` | datafeed_to_gba_controls.py:102-103 | The delta is the percentage change from the first to the last price: `delta * first == (last - first) * 100`. |
| `Feed.Volatility` | datafeed_to_gba_controls.py:104-105 | The range is non-negative, bounds every pairwise price difference in the window, and equals one of them. |
| `Feed.LargestTrade` | datafeed_to_gba_controls.py:108 | The maximum trade size bounds every size in the window and is attained. |
| `Feed.ComputeMetrics` | datafeed_to_gba_controls.py:100-109 | An empty window or a zero first price gives an error: no metrics. Otherwise the metrics use the first and last arrival for the delta. Buys + sells = count = window length. The range is non-negative and the largest trade bounds every size. |
| `Buttons.FromName` | datafeed_to_gba_controls.py:12-16 | A token names a button iff it is a key of the button map. |
| `Buttons.NameRoundTrip` | datafeed_to_gba_controls.py:12-16 | Every button's name is a key of the map and reads back to the same button. |
| `Buttons.KeyOrderIsKeys` | datafeed_to_gba_controls.py:12-16 | The map's key order lists exactly its keys, each once. |
| `Buttons.BtnMapInjective` | datafeed_to_gba_controls.py:12-16 | No two tokens share a wire character. |
| `Buttons.Encode` | datafeed_to_gba_controls.py:169-171 | Only a token in the map has a wire form, and that form is two characters ending in a newline. |
| `Buttons.DecodeEncode` | datafeed_to_gba_controls.py:184 | Decoding the wire form of a known token gives the token back. |
| `Buttons.EncodeDecode` | datafeed_to_gba_controls.py:184 | Every decodable wire string is the encoding of what it decodes to. |
| `Buttons.NamesHaveNoComma` | main.py:28 | No token name contains the comma used as the message separator. |
| `Buttons.CountIsMultiplicity` | datafeed_to_gba_controls.py:111-129 | The count used by the rule tables and the dispatcher's counters is the multiset multiplicity. |
| `Text.ParseNatToString` | datafeed_to_gba_controls.py:43 | A count printed in decimal reads back as the same number. |
| `Text.NatToStringInjective` | read_gba_data.py:56 | Different numbers print differently. |
| `Text.SplitJoin` | main.py:28 | Splitting a join on the separator gives the parts back, when no part contains the separator. |
| `Text.StrLeTotal` | datafeed_to_gba_controls.py:41 | Python's string order compares any two strings. |
| `Text.StrLeTransitive` | datafeed_to_gba_controls.py:41 | Python's string order is transitive. |
| `Text.StrLeAntisymmetric` | datafeed_to_gba_controls.py:41 | Python's string order is antisymmetric, so distinct keys sort strictly. |
| `DatafeedMapper.PressureRules` | datafeed_to_gba_controls.py:112-117 | Two UPs when buys exceed sells, two DOWNs when sells exceed buys, nothing on a tie. |
| `DatafeedMapper.MoveRules` | datafeed_to_gba_controls.py:118-119 | Exactly one token: A when the absolute delta is at most 0.00005, B otherwise. |
| `DatafeedMapper.ActivityRules` | datafeed_to_gba_controls.py:120-125 | Two LEFTs for 10 or more ticks, otherwise two RIGHTs. |
| `DatafeedMapper.TrendRules` | datafeed_to_gba_controls.py:126-127 | L above +0.05, R below -0.05, nothing in between. |
| `DatafeedMapper.SizeRangeRules` | datafeed_to_gba_controls.py:128-129 | START when the largest trade exceeds 0.1, SELECT when the range exceeds 25. |
| `DatafeedMapper.Rules` | datafeed_to_gba_controls.py:111-129 | Each button appears as often as the declarative multiplicity table says, and the list has 3 to 8 tokens. |
| `DatafeedMapper.GroupsAddUp` | datafeed_to_gba_controls.py:111-129 | The five independent rule groups together press each button as often as the declarative table says. |
| `DatafeedMapper.RulesShape` | datafeed_to_gba_controls.py:111-129 | Exactly one of A/B. Two LEFTs or two RIGHTs, never both. UP and DOWN come in pairs, exclude each other and are absent on a tie. L and R exclude each other. START and SELECT appear at most once. |
| `DatafeedMapper.Swap` | datafeed_to_gba_controls.py:132 | Swapping two positions exchanges those two elements, keeps the rest and keeps the multiset. |
| `DatafeedMapper.ShuffleFrom` | datafeed_to_gba_controls.py:132 | Every Fisher-Yates pass from index i down keeps the multiset of tokens. |
| `DatafeedMapper.Shuffle` | datafeed_to_gba_controls.py:131-132 | The shuffle is a permutation: same length, same multiset. |
| `DatafeedMapper.Accepted` | datafeed_to_gba_controls.py:88-97 | A pull adds one tick iff it is a readable message, and that tick is the message's parsed tick. A timeout or a malformed message adds nothing. |
| `DatafeedMapper.Evaluate` | datafeed_to_gba_controls.py:100-137 | An empty window or a zero first price enqueues nothing. Otherwise the enqueued tokens are a permutation of the rule table's tokens, at most 8. |
| `DatafeedMapper.Step` | datafeed_to_gba_controls.py:86-139 | A window closes iff the elapsed time reaches the window length. A closing window includes the tick pulled in the same iteration. After closing, the batch is empty and the timer is reset; before it, the batch only grows. |
| `DatafeedMapper.Run` | datafeed_to_gba_controls.py:84-139 | A run of the loop closes at most one window per iteration and queues at most 8 tokens per closed window; `RunTokens` pins which tokens. |
| `DatafeedMapper.RunTokens` | datafeed_to_gba_controls.py:111-135 | Over any run, the queued tokens are, as a multiset, exactly the rule tokens of the closed windows, none for a window whose metrics fail. |
| `DatafeedMapper.BoundaryTickJoinsClosedWindow` | datafeed_to_gba_controls.py:88-99 | A tick read in the iteration that reaches the boundary belongs to the window being closed. |
| `DatafeedMapper.RunKeepsEveryTick` | datafeed_to_gba_controls.py:84-139 | Over any run, the closed windows followed by the open batch are exactly the starting batch followed by every accepted tick, in order. At most 8 tokens are enqueued per closed window. |
| `Dispatcher.ZeroCounts` | datafeed_to_gba_controls.py:25 | One counter per button-map key, all zero. |
| `Dispatcher.Fresh` | datafeed_to_gba_controls.py:52-54 | The state after a reset is well formed, every counter is zero, the history is empty and the day is the new day. |
| `Dispatcher.PushRecent` | datafeed_to_gba_controls.py:174-176 | The newest token is last. The history grows by one up to 10, then keeps length 10. It is always the tail of the old history plus the new token, so the oldest entry goes first. |
| `Dispatcher.Record` | datafeed_to_gba_controls.py:173-176 | The pressed button's counter goes up by exactly 1 and every other counter is unchanged. The history gets the token. The day is unchanged. |
| `Dispatcher.Items` | datafeed_to_gba_controls.py:41 | The items list pairs each key, in key order, with its counter. |
| `Dispatcher.Insert` | datafeed_to_gba_controls.py:41 | Inserting a new key into a key-sorted list keeps it sorted and adds exactly that entry. |
| `Dispatcher.SortByKey` | datafeed_to_gba_controls.py:41 | Sorting by key gives an ascending permutation of the entries. |
| `Dispatcher.Positive` | datafeed_to_gba_controls.py:43 | The filter keeps exactly the entries with a positive count. |
| `Dispatcher.PositiveMultiplicity` | datafeed_to_gba_controls.py:43 | The filter keeps every positive entry exactly as often as it occurs and drops every other entry. |
| `Dispatcher.PositiveAscending` | datafeed_to_gba_controls.py:41-43 | Filtering a sorted list keeps it sorted. |
| `Dispatcher.ArchiveEntries` | datafeed_to_gba_controls.py:41-43 | The archived entries are sorted by name and hold each button with a positive count, with that count, and nothing else. |
| `Dispatcher.EntryText` | datafeed_to_gba_controls.py:43 | An entry's text is its name, a colon, then decimal digits that read back as its count. |
| `Dispatcher.EntryTexts` | datafeed_to_gba_controls.py:43 | One `name:count` text per entry, in order. |
| `Dispatcher.JoinOfEntriesEmpty` | datafeed_to_gba_controls.py:43-44 | The joined counts are empty exactly when no entry is listed, which is when "No moves" is written. |
| `Dispatcher.ArchiveRow` | datafeed_to_gba_controls.py:41-44 | With every count zero the row is `day | No moves`. Otherwise it is the day, then the sorted positive `name:count` entries joined by ", ", then a newline. |
| `Dispatcher.Rollover` | datafeed_to_gba_controls.py:33-54 | On an unchanged day nothing happens. On a new day the old day's row is archived and the state becomes fresh for today. |
| `Dispatcher.Dispatch` | datafeed_to_gba_controls.py:168-193 | An unknown token changes nothing and sends nothing. A known token is sent in a form that decodes back to it. On the same day only its counter moves, by 1, it joins the history and the day is kept. On a new day, the archived row counts this press into the day that ended and the state is reset. |
| `Dispatcher.DispatchAll` | datafeed_to_gba_controls.py:164-193 | Dispatching a sequence of tokens on one date keeps the state well formed and archives at most one row. When today is the current day, the day is kept and nothing is archived. |
| `Dispatcher.DispatchAllNewDay` | datafeed_to_gba_controls.py:36-54 | On a new date exactly one row is archived iff some queued token is known. That row is the old day's counts including the first known press, and the state moves to the new date. With no known token the state is unchanged. |
| `Dispatcher.Known` | datafeed_to_gba_controls.py:169-171 | A token passes the button-map lookup iff it was queued and is a map key. |
| `Dispatcher.KnownOccurrences` | datafeed_to_gba_controls.py:169-171 | Every known token passes as often as it was queued; unknown tokens never pass. |
| `Dispatcher.DispatchAllSendsKnown` | datafeed_to_gba_controls.py:168-184 | Whether or not the date changes, exactly the known tokens are sent, in order, each decoding to its token. |
| `Dispatcher.DispatchAllWires` | datafeed_to_gba_controls.py:168-184 | The messages sent depend only on the queued tokens: one `char + "\n"` per known token, whatever the state and date. |
| `Dispatcher.KnownWiresDecode` | datafeed_to_gba_controls.py:168-184 | There is one message per known token, and each decodes back to its token. |
| `Dispatcher.DispatchAllCounts` | datafeed_to_gba_controls.py:171-173 | Within one day each counter grows by the number of times its token was dispatched. |
| `Dispatcher.DispatchAllRecent` | datafeed_to_gba_controls.py:174-176 | Within one day the history is the last (at most 10) of the old history followed by the known tokens. |
| `CoinbaseMapper.Evaluate` | crypto_feed_functions/coinbase_functions.py:55-64 | Walking rules in order keeps exactly the firing buttons, once each, in rule order. |
| `CoinbaseMapper.Rules` | crypto_feed_functions/coinbase_functions.py:55-64 | A button is active iff its rule fires. Tokens are distinct and follow rule order. At most 6 are active. |
| `CoinbaseMapper.AtMostSixFire` | crypto_feed_functions/coinbase_functions.py:55-64 | No metrics fire more than six of the ten rules. |
| `CoinbaseMapper.RulesShape` | crypto_feed_functions/coinbase_functions.py:50-64 | RIGHT and LEFT exclude each other and are absent on a tie. A and B exclude each other and are absent for a delta in [-0.02, 0.02]. UP implies A and DOWN implies B. L and R exclude each other and are absent for 5 to 50 ticks. |
| `CoinbaseMapper.Collect` | crypto_feed_functions/coinbase_functions.py:32-41 | A timeout keeps the batch. A readable message appends its tick. An unreadable one stops the mapper loop, since only timeouts are caught. |
| `CoinbaseMapper.Step` | crypto_feed_functions/coinbase_functions.py:31-70 | The loop stops iff the pulled message cannot be read, or a non-empty window closes with a first price of 0. Otherwise buttons are evaluated iff the elapsed time reaches the window length: an empty window gives an empty list, a non-empty one the table's buttons, and the batch and timer are reset. |
| `MainMapper.ParseQuote` | main.py:51 | A quote is read iff the price is numeric and a side is present. A non-numeric price is a `ValueError`. |
| `MainMapper.Collect` | main.py:48-53 | Only ticker messages enter the batch. Others and timeouts leave it unchanged. An unreadable ticker message stops the mapper loop. |
| `MainMapper.Change` | main.py:60 | The change is what the first arrival's price must gain to reach the last arrival's; it is positive iff the last price is above the first. |
| `MainMapper.Rules` | main.py:63-68 | START exactly once. A iff the change is positive, and then before START. |
| `MainMapper.SendToMgba` | main.py:24-28 | Nothing is sent for an empty list. Otherwise splitting the message on commas gives back the token names in order. |
| `MainMapper.Step` | main.py:47-74 | At the boundary the batch and timer are reset, and a message is sent iff the window is non-empty. Before it, the batch only grows. |
| `MainMapper.WindowMessage` | main.py:57-71 | A non-empty window sends "A,START" after a rise and "START" otherwise. |
| `SaveFile.LittleEndianRoundTrip` | read_gba_data.py:19-20 | Reading back the n little-endian bytes of a value below 256^n gives the value. |
| `SaveFile.ToLittleEndianRoundTrip` | read_gba_data.py:19-20 | Every byte string is the encoding of the number it reads as. |
| `SaveFile.LittleEndian` | read_gba_data.py:51 | A little-endian read of n bytes lies below 256^n. |
| `SaveFile.Slice` | read_gba_data.py:19-20 | Python slicing stops at the end of the data: it is the exact slice when in range, and empty past the end. |
| `SaveFile.SaveIndex` | read_gba_data.py:19-20 | A slot's save index is a 32-bit value. For a long enough file it is the four bytes at offset 0x0FFC, least significant first. |
| `SaveFile.ActiveSlot` | read_gba_data.py:16-21 | The active slot is 0x00000 or 0x10000. It is slot A iff A's index is strictly larger, so a tie picks slot B. |
| `SaveFile.PartyCountAddress` | read_gba_data.py:36-39 | The party count byte lies inside section 1 of the slot. |
| `SaveFile.SpeciesAddress` | read_gba_data.py:47-51 | Each of the six members' 2-byte species id lies inside section 1, after the count byte. |
| `SaveFile.SpeciesId` | read_gba_data.py:50-51 | A species id is a 16-bit value. When the file is long enough it is the two bytes at the member's species address, least significant first. |
| `SaveFile.SpeciesName` | read_gba_data.py:56 | A Pokédex id gets its Pokédex name; any other id gets "ID: " followed by decimal digits that read back as the id. |
| `SaveFile.SpeciesNameRoundTrip` | read_gba_data.py:8-13 | Every species name, from the Pokédex or of the form "ID: n", reads back to its id. |
| `SaveFile.SpeciesNameInjective` | read_gba_data.py:56 | Different species ids never get the same name. |
| `SaveFile.PartyNames` | read_gba_data.py:47-57 | The list has one name per member, in slot order, each naming that slot's species. |
| `SaveFile.PullParty` | read_gba_data.py:32-64 | The read fails with an index error iff the count byte is past the end of the data. There is no party iff the count is outside 1..6. Otherwise there are exactly `count` names, member i named after the species id at its slot. |
| `SaveFile.SpeciesNameIsOneLine` | read_gba_data.py:56 | No species name contains a line break. |
| `SaveFile.Report` | read_gba_data.py:62 | The report's first line is the date line. |
| `SaveFile.ReportLines` | read_gba_data.py:61-62 | Splitting the written report into lines gives the date line followed by the party names, in order. With no names the date line's newline leaves one empty last line. |

## Left out

- The websocket feed (`get_coinbase_feed` in all three files) and JSON parsing are network I/O and a foreign library. The model takes their output as a sequence of already-decoded messages.
- The ticker filter in the feed functions of datafeed_to_gba_controls.py and coinbase_functions.py is left out with the feed itself. main.py's own filter in its mapper is modelled (`MainMapper.Collect`).
- asyncio queues, `wait_for` timeouts and `gather` are concurrency. A queue read is an input that is either a message or a timeout. An uncaught exception in one coroutine is the end of its step sequence.
- The sleep loop in `hourly_save_tracker` is wall-clock scheduling and is not modelled. Only its effect, the `SAVE` token reaching the dispatcher, is modelled: it is unknown to the button map and is dropped.
- Both `time.time()` readings of one iteration (the boundary check and the reset) are one input `now`. The reset therefore uses the same instant as the check.
- Socket connect, write and close, the 0.2 s and 2 s sleeps, and the handling of a failed emulator connection are I/O. The model produces the bytes that would be written.
- crypto_feed_functions/send_inputs.py is interactive terminal input over a socket, with no logic beyond I/O.
- File reads and writes are not modelled: `update_obs_files`, the archive append, the save-file open and the file-not-found message. The archive row and the party report are modelled as the strings that would be written. `datetime.now()` is not modelled either: days and timestamps are strings passed in.
- Python floats are modelled as `real`: no rounding, no infinities or NaN in `float(...)` or the threshold comparisons.
- MainMapper.ParseQuote: a ticker message with `"side": null` stops the model's main.py loop, while main.py:51 keeps that quote with a `None` side. The model's messages do not tell a JSON `null` side from a missing one, and only the missing key raises `KeyError` in the source.
- Console output is not modelled: every `print` call in the three loops, the dispatcher and the save-file reader. Examples are "Executing", "Data Collection Error", "Logic Calculation Error", the day-rollover notice, "Active Buttons", "Batch ended. Sending", the party snapshot heading, "Slot i: name" and "Could not read party". None of them affects state or what is written.
- The `buys` count in main.py's mapper is computed but never used, so it is not modelled.
- The XOR encryption and section rotation of the save format are not modelled. Like the source, the model reads section 1 at a fixed offset from the slot start.
- DatafeedMapper.Shuffle: states only that the result is a permutation of its input, not that every permutation is equally likely, because `random.shuffle`'s randomness is an input stream of draws here.

=== FILE: buttons.dfy ===
/**
  The fixed button vocabulary: the token names the mappers produce, the
  `BTN_MAP` table from token name to the one-character command the emulator
  script understands, and the wire message the dispatcher writes per token.
*/
module Buttons {
  import opened Wrappers

  datatype Button = A | B | Start | Select | Right | Left | Up | Down | L | R

  /** The token name a mapper puts on the button queue. */
  function Name(b: Button): string
  {
    match b
    case A => "A"
    case B => "B"
    case Start => "START"
    case Select => "SELECT"
    case Right => "RIGHT"
    case Left => "LEFT"
    case Up => "UP"
    case Down => "DOWN"
    case L => "L"
    case R => "R"
  }

  function Names(bs: seq<Button>): (names: seq<string>)
    ensures |names| == |bs|
    ensures forall i :: 0 <= i < |bs| ==> names[i] == Name(bs[i])
  {
    if |bs| == 0 then [] else [Name(bs[0])] + Names(bs[1..])
  }

  /** How many times `b` occurs in `bs`. */
  function Count<T(==)>(bs: seq<T>, b: T): (n: nat)
    ensures n <= |bs|
  {
    if |bs| == 0 then 0 else (if bs[0] == b then 1 else 0) + Count(bs[1..], b)
  }

  lemma {:induction false} CountAppend<T>(xs: seq<T>, ys: seq<T>, b: T)
    ensures Count(xs + ys, b) == Count(xs, b) + Count(ys, b)
    decreases |xs|
  {
    if |xs| == 0 {
      assert xs + ys == ys;
    } else {
      CountAppend(xs[1..], ys, b);
      assert (xs + ys)[0] == xs[0];
      assert (xs + ys)[1..] == xs[1..] + ys;
    }
  }

  /** `Count` is the multiplicity in the multiset of the sequence. */
  lemma {:induction false} CountIsMultiplicity<T>(bs: seq<T>, b: T)
    ensures Count(bs, b) == multiset(bs)[b]
    decreases |bs|
  {
    if |bs| > 0 {
      CountIsMultiplicity(bs[1..], b);
      assert bs == [bs[0]] + bs[1..];
    }
  }

  /** `BTN_MAP`: token name to emulator command character. */
  const BtnMap: map<string, char> :=
    map["A" := 'A', "B" := 'B', "START" := 'S', "SELECT" := 's',
        "RIGHT" := '>', "LEFT" := '<', "UP" := '^', "DOWN" := 'v',
        "L" := 'L', "R" := 'R']

  /** The keys of `BTN_MAP` in insertion order, which is Python's dict iteration order. */
  const KeyOrder: seq<string> :=
    ["A", "B", "START", "SELECT", "RIGHT", "LEFT", "UP", "DOWN", "L", "R"]

  /** The button a token name denotes, if it is a key of `BTN_MAP`. */
  function FromName(s: string): (r: Option<Button>)
    ensures r.Some? <==> s in BtnMap
    ensures r.Some? ==> Name(r.value) == s
  {
    if s == "A" then Some(A)
    else if s == "B" then Some(B)
    else if s == "START" then Some(Start)
    else if s == "SELECT" then Some(Select)
    else if s == "RIGHT" then Some(Right)
    else if s == "LEFT" then Some(Left)
    else if s == "UP" then Some(Up)
    else if s == "DOWN" then Some(Down)
    else if s == "L" then Some(L)
    else if s == "R" then Some(R)
    else None
  }

  /** Every button name is a key of `BTN_MAP`, and names identify buttons. */
  lemma NameRoundTrip(b: Button)
    ensures Name(b) in BtnMap
    ensures FromName(Name(b)) == Some(b)
  {
  }

  /** `KeyOrder` lists each key of `BTN_MAP` exactly once. */
  lemma KeyOrderIsKeys()
    ensures forall k :: k in BtnMap <==> k in KeyOrder
    ensures forall i, j :: 0 <= i < j < |KeyOrder| ==> KeyOrder[i] != KeyOrder[j]
  {
  }

  /** No token name contains a comma, so a comma-joined batch can be split again. */
  lemma NamesHaveNoComma(b: Button)
    ensures ',' !in Name(b)
  {
  }

  /**
    The bytes written to the emulator for one token: its command character
    followed by a newline; unknown tokens have no encoding. Every command
    character is ASCII, so a character stands for its one UTF-8 byte.
  */
  function Encode(name: string): (wire: Option<seq<char>>)
    ensures wire.Some? <==> name in BtnMap
    ensures wire.Some? ==> |wire.value| == 2 && wire.value[1] == '\n'
  {
    if name in BtnMap then Some([BtnMap[name], '\n']) else None
  }

  /** The emulator side's reading of a command message. */
  function Decode(wire: seq<char>): Option<string>
  {
    if |wire| != 2 || wire[1] != '\n' then None
    else match wire[0]
      case 'A' => Some("A")
      case 'B' => Some("B")
      case 'S' => Some("START")
      case 's' => Some("SELECT")
      case '>' => Some("RIGHT")
      case '<' => Some("LEFT")
      case '^' => Some("UP")
      case 'v' => Some("DOWN")
      case 'L' => Some("L")
      case 'R' => Some("R")
      case _ => None
  }

  /** Every known token's message decodes back to that token. */
  lemma DecodeEncode(name: string)
    requires name in BtnMap
    ensures Encode(name).Some? && Decode(Encode(name).value) == Some(name)
  {
  }

  /** Every message that decodes is exactly the encoding of what it decodes to. */
  lemma EncodeDecode(wire: seq<char>)
    ensures Decode(wire).Some? ==> Encode(Decode(wire).value) == Some(wire)
  {
    if Decode(wire).Some? {
      assert wire == [wire[0], '\n'];
    }
  }

  /** `BTN_MAP` is injective: distinct tokens are sent as distinct characters. */
  lemma BtnMapInjective(k1: string, k2: string)
    requires k1 in BtnMap && k2 in BtnMap
    ensures BtnMap[k1] == BtnMap[k2] ==> k1 == k2
  {
    DecodeEncode(k1);
    DecodeEncode(k2);
  }
}

=== FILE: coinbase_mapper.dfy ===
/**
  The earlier "10-channel" aggregator (`gba_logic_mapper` in
  crypto_feed_functions/coinbase_functions.py): five-second windows (`window` is 5.0 there), one rule
  per button, each button at most once, no shuffle. It only reports the
  active buttons. Unlike the full controller it catches nothing but the
  pull timeout, so a malformed tick or a first price of 0 stops the mapper loop.
*/
module CoinbaseMapper {
  import opened Wrappers
  import opened Feed
  import opened Buttons

  /** `delta` (in percent) beyond which A or B is pressed. */
  const MoveBand: real := 0.02
  /** `delta` (in percent) beyond which UP or DOWN is pressed. */
  const SurgeBand: real := 0.1
  const BigTrade: real := 0.1
  const WideRange: real := 10.0
  /** More ticks than this is a busy window (L). */
  const BusyCount: nat := 50
  /** Fewer ticks than this is a quiet window (R). */
  const QuietCount: nat := 5

  /** The buttons in the order their rules are evaluated. */
  const RuleOrder: seq<Button> := [Right, Left, A, B, Start, Select, Up, Down, L, R]

  /** Position of a button's rule in the table. */
  function RuleIndex(b: Button): nat
  {
    match b
    case Right => 0
    case Left => 1
    case A => 2
    case B => 3
    case Start => 4
    case Select => 5
    case Up => 6
    case Down => 7
    case L => 8
    case R => 9
  }

  /** The condition of each button's rule. */
  predicate Fires(m: Metrics, b: Button)
  {
    match b
    case Right => m.buys > m.sells
    case Left => m.sells > m.buys
    case A => m.delta > MoveBand
    case B => m.delta < -MoveBand
    case Start => m.maxTrade > BigTrade
    case Select => m.volatility > WideRange
    case Up => m.delta > SurgeBand
    case Down => m.delta < -SurgeBand
    case L => m.count > BusyCount
    case R => m.count < QuietCount
  }

  function CountFiring(bs: seq<Button>, m: Metrics): nat
  {
    if |bs| == 0 then 0 else (if Fires(m, bs[0]) then 1 else 0) + CountFiring(bs[1..], m)
  }

  /**
    Evaluating rules in order, each appending its button when it fires:
    the result holds exactly the firing buttons and keeps the rules' order.
  */
  function Evaluate(bs: seq<Button>, m: Metrics): (r: seq<Button>)
    ensures forall b :: b in r <==> b in bs && Fires(m, b)
    ensures |r| == CountFiring(bs, m)
    ensures (forall i, j :: 0 <= i < j < |bs| ==> RuleIndex(bs[i]) < RuleIndex(bs[j])) ==>
              forall i, j :: 0 <= i < j < |r| ==> RuleIndex(r[i]) < RuleIndex(r[j])
    decreases |bs|
  {
    if |bs| == 0 then []
    else
      var rest := Evaluate(bs[1..], m);
      assert forall b :: b in bs <==> b == bs[0] || b in bs[1..];
      assert (forall i, j :: 0 <= i < j < |bs| ==> RuleIndex(bs[i]) < RuleIndex(bs[j])) ==>
               forall i :: 0 <= i < |rest| ==> RuleIndex(bs[0]) < RuleIndex(rest[i]) by {
        forall i | 0 <= i < |rest| && (forall i, j :: 0 <= i < j < |bs| ==> RuleIndex(bs[i]) < RuleIndex(bs[j]))
          ensures RuleIndex(bs[0]) < RuleIndex(rest[i])
        {
          assert rest[i] in bs[1..];
          var k :| 0 <= k < |bs[1..]| && bs[1..][k] == rest[i];
          assert bs[k + 1] == rest[i];
        }
      }
      if Fires(m, bs[0]) then [bs[0]] + rest else rest
  }

  /**
    The 10-channel table: a button is active exactly when its rule fires, the
    buttons come in rule order, none twice, and at most six at once.
  */
  function Rules(m: Metrics): (r: seq<Button>)
    ensures forall b :: b in r <==> Fires(m, b)
    ensures forall i, j :: 0 <= i < j < |r| ==> RuleIndex(r[i]) < RuleIndex(r[j])
    ensures forall i, j :: 0 <= i < j < |r| ==> r[i] != r[j]
    ensures |r| <= 6
  {
    RuleOrderCoversAll();
    AtMostSixFire(m);
    Evaluate(RuleOrder, m)
  }

  /** Every button has one rule, and the rules are listed in table order. */
  lemma RuleOrderCoversAll()
    ensures forall b :: b in RuleOrder
    ensures forall i, j :: 0 <= i < j < |RuleOrder| ==> RuleIndex(RuleOrder[i]) < RuleIndex(RuleOrder[j])
  {
    forall i | 0 <= i < |RuleOrder|
      ensures RuleIndex(RuleOrder[i]) == i
    {
    }
    forall b
      ensures b in RuleOrder
    {
      assert RuleOrder[RuleIndex(b)] == b;
    }
  }

  lemma CountFiringAppend(xs: seq<Button>, ys: seq<Button>, m: Metrics)
    ensures CountFiring(xs + ys, m) == CountFiring(xs, m) + CountFiring(ys, m)
  {
    if |xs| > 0 {
      CountFiringAppend(xs[1..], ys, m);
      assert (xs + ys)[1..] == xs[1..] + ys;
    } else {
      assert xs + ys == ys;
    }
  }

  /**
    RIGHT/LEFT, A/B, UP/DOWN and L/R are four mutually exclusive pairs; only
    START and SELECT can fire together, so at most 4 + 2 rules fire.
  */
  lemma AtMostSixFire(m: Metrics)
    ensures CountFiring(RuleOrder, m) <= 6
  {
    var p1, p2, p3, p4, p5 := [Right, Left], [A, B], [Start, Select], [Up, Down], [L, R];
    assert RuleOrder == p1 + p2 + p3 + p4 + p5;
    CountFiringAppend(p1, p2, m);
    CountFiringAppend(p1 + p2, p3, m);
    CountFiringAppend(p1 + p2 + p3, p4, m);
    CountFiringAppend(p1 + p2 + p3 + p4, p5, m);
    CountPair(Right, Left, m);
    CountPair(A, B, m);
    CountPair(Start, Select, m);
    CountPair(Up, Down, m);
    CountPair(L, R, m);
  }

  lemma CountPair(x: Button, y: Button, m: Metrics)
    ensures CountFiring([x, y], m) == (if Fires(m, x) then 1 else 0) + (if Fires(m, y) then 1 else 0)
  {
    assert [x, y][1..] == [y];
    assert [y][1..] == [];
    assert CountFiring([y], m) == (if Fires(m, y) then 1 else 0) + CountFiring([], m);
    assert CountFiring([x, y], m) == (if Fires(m, x) then 1 else 0) + CountFiring([y], m);
  }

  /**
    The table's exclusions: RIGHT/LEFT, A/B, UP/DOWN and L/R never fire
    together; a buy/sell tie fires neither of RIGHT/LEFT, a delta within the
    move band neither of A/B, 5 to 50 ticks neither of L/R; UP implies A and
    DOWN implies B, since the surge band is wider than the move band.
  */
  lemma RulesShape(m: Metrics)
    ensures !(Right in Rules(m) && Left in Rules(m))
    ensures m.buys == m.sells ==> Right !in Rules(m) && Left !in Rules(m)
    ensures !(A in Rules(m) && B in Rules(m))
    ensures -MoveBand <= m.delta <= MoveBand ==> A !in Rules(m) && B !in Rules(m)
    ensures Up in Rules(m) ==> A in Rules(m)
    ensures Down in Rules(m) ==> B in Rules(m)
    ensures !(L in Rules(m) && R in Rules(m))
    ensures QuietCount <= m.count <= BusyCount ==> L !in Rules(m) && R !in Rules(m)
  {
  }

  /** The aggregator's loop state: the open batch and when it was opened. */
  datatype Mapper = Mapper(batch: seq<Tick>, lastBatchTime: real)

  /** Why the mapper loop stops: an exception no handler catches. */
  datatype Crash = BadTick(parse: ParseError) | BadWindow(metric: MetricError)

  /** After one iteration: still running, with the active buttons of a window closed in it, or crashed. */
  datatype Outcome = Running(next: Mapper, active: Option<seq<Button>>) | Crashed(reason: Crash)

  /** The batch after one pull: a parsed tick is appended, a timeout adds nothing, a bad message crashes. */
  function Collect(batch: seq<Tick>, pull: Pull): (r: Result<seq<Tick>, Crash>)
    ensures pull.TimedOut? ==> r == Ok(batch)
    ensures pull.Pulled? ==> (r.Ok? <==> ParseTick(pull.msg).Ok?)
    ensures pull.Pulled? && r.Ok? ==> r.value == batch + [ParseTick(pull.msg).value]
    ensures r.Err? ==> r.error.BadTick?
  {
    match pull
    case TimedOut => Ok(batch)
    case Pulled(msg) =>
      match ParseTick(msg)
      case Ok(t) => Ok(batch + [t])
      case Err(e) => Err(BadTick(e))
  }

  /**
    One loop iteration: pull (or time out), then the boundary check at `now`.
    At the boundary an empty window gives an empty list of active buttons, a
    non-empty one the table's buttons (a first price of 0 stops the mapper loop), and
    the batch and timer are reset; before it, the batch only grows.
  */
  function Step(s: Mapper, pull: Pull, now: real, window: real): (r: Outcome)
    ensures Collect(s.batch, pull).Err? ==> r == Crashed(Collect(s.batch, pull).error)
    ensures r.Crashed? <==> Collect(s.batch, pull).Err?
                            || (now - s.lastBatchTime >= window && 0 < |Collect(s.batch, pull).value|
                                && Collect(s.batch, pull).value[0].price == 0.0)
    ensures r.Running? ==> Collect(s.batch, pull).Ok?
    ensures r.Running? ==> (r.active.Some? <==> now - s.lastBatchTime >= window)
    ensures r.Running? && r.active.None? ==> r.next == Mapper(Collect(s.batch, pull).value, s.lastBatchTime)
    ensures r.Running? && r.active.Some? ==> r.next == Mapper([], now)
    ensures r.Running? && r.active.Some? && |Collect(s.batch, pull).value| == 0 ==> r.active.value == []
    ensures r.Running? && r.active.Some? && 0 < |Collect(s.batch, pull).value| ==>
              ComputeMetrics(Collect(s.batch, pull).value).Ok?
              && r.active.value == Rules(ComputeMetrics(Collect(s.batch, pull).value).value)
    ensures r.Crashed? && r.reason.BadWindow? ==>
              r.reason.metric == ZeroDivision && Collect(s.batch, pull).Ok?
              && 0 < |Collect(s.batch, pull).value| && Collect(s.batch, pull).value[0].price == 0.0
  {
    match Collect(s.batch, pull)
    case Err(crash) => Crashed(crash)
    case Ok(batch) =>
      if now - s.lastBatchTime >= window then
        if |batch| > 0 then
          match ComputeMetrics(batch)
          case Ok(m) => Running(Mapper([], now), Some(Rules(m)))
          case Err(e) => Crashed(BadWindow(e))
        else Running(Mapper([], now), Some([]))
      else Running(Mapper(batch, s.lastBatchTime), None)
  }
}

=== FILE: datafeed_mapper.dfy ===
/**
  The aggregator of the full controller (`gba_logic_mapper` in
  datafeed_to_gba_controls.py): it pulls ticks with a short timeout, closes
  the window once `window` seconds (2.0 in the program) have passed, turns the window's metrics
  into button tokens through a threshold table with doubled tokens, shuffles
  them and puts them on the button queue.
*/
module DatafeedMapper {
  import opened Wrappers
  import opened Feed
  import opened Buttons

  /** `|delta|` at or below this (in percent) counts as a flat window. */
  const FlatBand: real := 0.00005
  /** `delta` beyond this (in percent) presses a shoulder button. */
  const TrendBand: real := 0.05
  const BigTrade: real := 0.1
  const WideRange: real := 25.0
  /** Windows with at least this many ticks move LEFT, the others RIGHT. */
  const BusyCount: nat := 10

  function Abs(x: real): real {
    if x < 0.0 then -x else x
  }

  /** Order-flow rules: a pair of UP on more buys, a pair of DOWN on more sells. */
  function PressureRules(m: Metrics): (p: seq<Button>)
    ensures |p| <= 2
    ensures forall b :: Count(p, b) == if b == Up && m.buys > m.sells then 2
                                       else if b == Down && m.sells > m.buys then 2
                                       else 0
  {
    var up := if m.buys > m.sells then [Up, Up] else [];
    var down := if m.sells > m.buys then [Down, Down] else [];
    assert forall b :: Count(up + down, b) == Count(up, b) + Count(down, b) by {
      forall b { CountAppend(up, down, b); }
    }
    up + down
  }

  /** B when the price moved beyond the flat band, A when it did not. */
  function MoveRules(m: Metrics): (p: seq<Button>)
    ensures |p| == 1
    ensures forall b :: Count(p, b) == if b == A && Abs(m.delta) <= FlatBand then 1
                                       else if b == B && Abs(m.delta) > FlatBand then 1
                                       else 0
  {
    var moved := if Abs(m.delta) > FlatBand then [B] else [];
    var flat := if Abs(m.delta) <= FlatBand then [A] else [];
    assert forall b :: Count(moved + flat, b) == Count(moved, b) + Count(flat, b) by {
      forall b { CountAppend(moved, flat, b); }
    }
    moved + flat
  }

  /** A pair of LEFT for a busy window, a pair of RIGHT otherwise. */
  function ActivityRules(m: Metrics): (p: seq<Button>)
    ensures |p| == 2
    ensures forall b :: Count(p, b) == if b == Left && m.count >= BusyCount then 2
                                       else if b == Right && m.count < BusyCount then 2
                                       else 0
  {
    if m.count >= BusyCount then [Left, Left] else [Right, Right]
  }

  /** L on a rise beyond the trend band, R on a fall beyond it. */
  function TrendRules(m: Metrics): (p: seq<Button>)
    ensures |p| <= 1
    ensures forall b :: Count(p, b) == if b == L && m.delta > TrendBand then 1
                                       else if b == R && m.delta < -TrendBand then 1
                                       else 0
  {
    var rise := if m.delta > TrendBand then [L] else [];
    var fall := if m.delta < -TrendBand then [R] else [];
    assert forall b :: Count(rise + fall, b) == Count(rise, b) + Count(fall, b) by {
      forall b { CountAppend(rise, fall, b); }
    }
    rise + fall
  }

  /** START on a large trade, SELECT on a wide price range. */
  function SizeRangeRules(m: Metrics): (p: seq<Button>)
    ensures |p| <= 2
    ensures forall b :: Count(p, b) == if b == Start && m.maxTrade > BigTrade then 1
                                       else if b == Select && m.volatility > WideRange then 1
                                       else 0
  {
    var big := if m.maxTrade > BigTrade then [Start] else [];
    var wide := if m.volatility > WideRange then [Select] else [];
    assert forall b :: Count(big + wide, b) == Count(big, b) + Count(wide, b) by {
      forall b { CountAppend(big, wide, b); }
    }
    big + wide
  }

  /**
    The rule table read declaratively: how many times each button is pressed
    for a window with metrics `m`.
  */
  function Multiplicity(m: Metrics, b: Button): nat
  {
    match b
    case Up => if m.buys > m.sells then 2 else 0
    case Down => if m.sells > m.buys then 2 else 0
    case A => if Abs(m.delta) <= FlatBand then 1 else 0
    case B => if Abs(m.delta) > FlatBand then 1 else 0
    case Left => if m.count >= BusyCount then 2 else 0
    case Right => if m.count < BusyCount then 2 else 0
    case L => if m.delta > TrendBand then 1 else 0
    case R => if m.delta < -TrendBand then 1 else 0
    case Start => if m.maxTrade > BigTrade then 1 else 0
    case Select => if m.volatility > WideRange then 1 else 0
  }

  /**
    The rule table as the program evaluates it: independent rules in order,
    each appending its tokens. Each button occurs as often as the declarative
    table says, and a window that reaches the table yields 3 to 8 tokens.
  */
  function Rules(m: Metrics): (r: seq<Button>)
    ensures forall b :: Count(r, b) == Multiplicity(m, b)
    ensures 3 <= |r| <= 8
  {
    var pressure := PressureRules(m);
    var move := MoveRules(m);
    var activity := ActivityRules(m);
    var trend := TrendRules(m);
    var sizeRange := SizeRangeRules(m);
    var r := pressure + move + activity + trend + sizeRange;
    forall b
      ensures Count(r, b) == Count(pressure, b) + Count(move, b) + Count(activity, b)
                             + Count(trend, b) + Count(sizeRange, b)
    {
      CountAppend(pressure, move, b);
      CountAppend(pressure + move, activity, b);
      CountAppend(pressure + move + activity, trend, b);
      CountAppend(pressure + move + activity + trend, sizeRange, b);
    }
    forall b
      ensures Count(r, b) == Multiplicity(m, b)
    {
      GroupsAddUp(m, b);
    }
    r
  }

  /** The five rule groups together press each button as often as the declarative table says. */
  lemma GroupsAddUp(m: Metrics, b: Button)
    ensures Count(PressureRules(m), b) + Count(MoveRules(m), b) + Count(ActivityRules(m), b)
            + Count(TrendRules(m), b) + Count(SizeRangeRules(m), b) == Multiplicity(m, b)
  {
    match b
    case Up =>
    case Down =>
    case A =>
    case B =>
    case Left =>
    case Right =>
    case L =>
    case R =>
    case Start =>
    case Select =>
  }

  /**
    The shape of every batch the table produces: exactly one of A/B; exactly
    two LEFT or exactly two RIGHT, never both; an UP pair or a DOWN pair, never
    both and neither on a buy/sell tie; L and R mutually exclusive; START and
    SELECT at most once.
  */
  lemma RulesShape(m: Metrics)
    ensures Count(Rules(m), A) + Count(Rules(m), B) == 1
    ensures (Count(Rules(m), Left) == 2 && Count(Rules(m), Right) == 0)
            || (Count(Rules(m), Right) == 2 && Count(Rules(m), Left) == 0)
    ensures Count(Rules(m), Up) in {0, 2} && Count(Rules(m), Down) in {0, 2}
    ensures Count(Rules(m), Up) == 0 || Count(Rules(m), Down) == 0
    ensures m.buys == m.sells ==> Count(Rules(m), Up) == 0 && Count(Rules(m), Down) == 0
    ensures Count(Rules(m), L) + Count(Rules(m), R) <= 1
    ensures Count(Rules(m), Start) <= 1 && Count(Rules(m), Select) <= 1
  {
    var r := Rules(m);
    assert Count(r, A) == Multiplicity(m, A) && Count(r, B) == Multiplicity(m, B);
    assert Count(r, Left) == Multiplicity(m, Left) && Count(r, Right) == Multiplicity(m, Right);
    assert Count(r, Up) == Multiplicity(m, Up) && Count(r, Down) == Multiplicity(m, Down);
    assert Count(r, L) == Multiplicity(m, L) && Count(r, R) == Multiplicity(m, R);
    assert Count(r, Start) == Multiplicity(m, Start) && Count(r, Select) == Multiplicity(m, Select);
  }

  function Swap<T>(s: seq<T>, i: nat, j: nat): (r: seq<T>)
    requires i < |s| && j < |s|
    ensures |r| == |s|
    ensures multiset(r) == multiset(s)
    ensures r[i] == s[j] && r[j] == s[i]
    ensures forall k :: 0 <= k < |s| && k != i && k != j ==> r[k] == s[k]
  {
    s[i := s[j]][j := s[i]]
  }

  /**
    The swaps `random.shuffle` performs for positions `i` down to 1; the
    `k`-th call to `randbelow(i + 1)` answers `rand(k) % (i + 1)`.
  */
  function ShuffleFrom<T>(s: seq<T>, i: nat, rand: nat -> nat, k: nat): (r: seq<T>)
    requires i < |s|
    ensures multiset(r) == multiset(s)
    decreases i
  {
    if i == 0 then s
    else ShuffleFrom(Swap(s, i, rand(k) % (i + 1)), i - 1, rand, k + 1)
  }

  /** `random.shuffle`: whatever the random answers, only the order changes. */
  function Shuffle<T>(s: seq<T>, rand: nat -> nat): (r: seq<T>)
    ensures |r| == |s|
    ensures multiset(r) == multiset(s)
  {
    if |s| == 0 then s else ShuffleFrom(s, |s| - 1, rand, 0)
  }

  /** The aggregator's loop state: the open batch and when it was opened. */
  datatype Mapper = Mapper(batch: seq<Tick>, lastBatchTime: real)

  /** A fresh aggregator, as at start-up. */
  function Init(now: real): Mapper {
    Mapper([], now)
  }

  /**
    What one pull adds to the batch: the tick of a message `float` accepts;
    nothing on a timeout or when the message raises (the exception is caught).
  */
  function Accepted(pull: Pull): (ts: seq<Tick>)
    ensures |ts| <= 1
    ensures |ts| == 1 <==> pull.Pulled? && ParseTick(pull.msg).Ok?
    ensures |ts| == 1 ==> ts == [ParseTick(pull.msg).value]
  {
    match pull
    case TimedOut => []
    case Pulled(msg) =>
      match ParseTick(msg)
      case Ok(t) => [t]
      case Err(_) => []
  }

  /**
    The tokens put on the button queue for a closed window: none for an empty
    window or a first price of 0 (the error is caught), otherwise a shuffle
    of the rule table's tokens.
  */
  function Evaluate(batch: seq<Tick>, rand: nat -> nat): (out: seq<Button>)
    ensures ComputeMetrics(batch).Err? ==> out == []
    ensures ComputeMetrics(batch).Ok? ==> multiset(out) == multiset(Rules(ComputeMetrics(batch).value))
    ensures |out| <= 8
  {
    match ComputeMetrics(batch)
    case Err(_) => []
    case Ok(m) =>
      var actions := Rules(m);
      if |actions| > 0 then Shuffle(actions, rand) else []
  }

  datatype StepResult = StepResult(next: Mapper, closed: Option<seq<Tick>>, enqueued: seq<Button>)

  /**
    One loop iteration: pull (or time out), then the boundary check at time
    `now`. At the boundary the batch, including a tick pulled in this very
    iteration, is closed and evaluated, and the batch and timer are reset.
  */
  function Step(s: Mapper, pull: Pull, now: real, window: real, rand: nat -> nat): (r: StepResult)
    ensures r.closed.Some? <==> now - s.lastBatchTime >= window
    ensures r.closed.Some? ==> r.closed.value == s.batch + Accepted(pull)
    ensures r.closed.Some? ==> r.next == Init(now) && r.enqueued == Evaluate(r.closed.value, rand)
    ensures r.closed.None? ==> r.next == Mapper(s.batch + Accepted(pull), s.lastBatchTime) && r.enqueued == []
  {
    var batch := s.batch + Accepted(pull);
    if now - s.lastBatchTime >= window then
      StepResult(Init(now), Some(batch), Evaluate(batch, rand))
    else
      StepResult(Mapper(batch, s.lastBatchTime), None, [])
  }

  /** A tick pulled in the iteration that reaches the boundary is the last tick of the closed window. */
  lemma BoundaryTickJoinsClosedWindow(s: Mapper, msg: Message, now: real, window: real, rand: nat -> nat)
    requires ParseTick(msg).Ok?
    requires now - s.lastBatchTime >= window
    ensures Step(s, Pulled(msg), now, window, rand).closed == Some(s.batch + [ParseTick(msg).value])
  {
  }

  /** What the environment supplies for one iteration. */
  datatype Input = Input(pull: Pull, now: real, rand: nat -> nat)

  datatype RunResult = RunResult(final: Mapper, windows: seq<seq<Tick>>, enqueued: seq<Button>)

  /** The loop over a finite prefix of its inputs: closed windows and queued tokens, in order. */
  function Run(s: Mapper, inputs: seq<Input>, window: real): (r: RunResult)
    ensures |r.windows| <= |inputs|
    ensures |r.enqueued| <= 8 * |r.windows|
    decreases |inputs|
  {
    if |inputs| == 0 then RunResult(s, [], [])
    else
      var r := Step(s, inputs[0].pull, inputs[0].now, window, inputs[0].rand);
      var rest := Run(r.next, inputs[1..], window);
      var ws := if r.closed.Some? then [r.closed.value] else [];
      RunResult(rest.final, ws + rest.windows, r.enqueued + rest.enqueued)
  }

  function AcceptedAll(inputs: seq<Input>): seq<Tick>
  {
    if |inputs| == 0 then [] else Accepted(inputs[0].pull) + AcceptedAll(inputs[1..])
  }

  function Flatten<T>(ws: seq<seq<T>>): seq<T>
  {
    if |ws| == 0 then [] else ws[0] + Flatten(ws[1..])
  }

  /**
    No tick is lost or duplicated: the closed windows, followed by the still
    open batch, are exactly the starting batch followed by every accepted
    tick, in arrival order. Each closed window queues at most 8 tokens.
  */
  lemma {:induction false} RunKeepsEveryTick(s: Mapper, inputs: seq<Input>, window: real)
    ensures Flatten(Run(s, inputs, window).windows) + Run(s, inputs, window).final.batch
            == s.batch + AcceptedAll(inputs)
    ensures |Run(s, inputs, window).enqueued| <= 8 * |Run(s, inputs, window).windows|
    decreases |inputs|
  {
    if |inputs| > 0 {
      var r := Step(s, inputs[0].pull, inputs[0].now, window, inputs[0].rand);
      var rest := Run(r.next, inputs[1..], window);
      RunKeepsEveryTick(r.next, inputs[1..], window);
      var all := Run(s, inputs, window);
      var acc := Accepted(inputs[0].pull);
      assert AcceptedAll(inputs) == acc + AcceptedAll(inputs[1..]);
      assert all.final == rest.final;
      if r.closed.Some? {
        assert all.windows == [r.closed.value] + rest.windows;
        assert ([r.closed.value] + rest.windows)[1..] == rest.windows;
        assert Flatten(all.windows) == r.closed.value + Flatten(rest.windows);
        assert [] + AcceptedAll(inputs[1..]) == AcceptedAll(inputs[1..]);
        ConcatAssoc(r.closed.value, Flatten(rest.windows), rest.final.batch);
        ConcatAssoc(s.batch, acc, AcceptedAll(inputs[1..]));
      } else {
        assert all.windows == rest.windows;
        assert r.enqueued == [];
        ConcatAssoc(s.batch, acc, AcceptedAll(inputs[1..]));
      }
    }
  }

  /** The rule tokens of a window: those of its metrics, none when they cannot be computed. */
  function WindowRules(w: seq<Tick>): seq<Button> {
    match ComputeMetrics(w)
    case Ok(m) => Rules(m)
    case Err(_) => []
  }

  /** The rule tokens of every closed window, together. */
  function WindowTokens(ws: seq<seq<Tick>>): multiset<Button> {
    if |ws| == 0 then multiset{} else multiset(WindowRules(ws[0])) + WindowTokens(ws[1..])
  }

  /**
    The queue receives exactly the rule tokens of the closed windows: the
    shuffles reorder them, but nothing is added, lost or duplicated.
  */
  lemma {:induction false} RunTokens(s: Mapper, inputs: seq<Input>, window: real)
    ensures multiset(Run(s, inputs, window).enqueued) == WindowTokens(Run(s, inputs, window).windows)
    decreases |inputs|
  {
    if |inputs| > 0 {
      var r := Step(s, inputs[0].pull, inputs[0].now, window, inputs[0].rand);
      var rest := Run(r.next, inputs[1..], window);
      RunTokens(r.next, inputs[1..], window);
      var all := Run(s, inputs, window);
      assert all.enqueued == r.enqueued + rest.enqueued;
      if r.closed.Some? {
        assert all.windows == [r.closed.value] + rest.windows;
        assert all.windows[1..] == rest.windows;
        assert multiset(r.enqueued) == multiset(WindowRules(r.closed.value));
      } else {
        assert all.windows == rest.windows;
      }
    }
  }

  lemma ConcatAssoc<T>(a: seq<T>, b: seq<T>, c: seq<T>)
    ensures (a + b) + c == a + (b + c)
  {
  }
}

=== FILE: dispatcher.dfy ===
/**
  The button sender of the full controller (`gba_sender` and
  `check_day_rollover` in datafeed_to_gba_controls.py): it looks each queued
  token up in `BTN_MAP`, drops unknown tokens, keeps per-button counters and
  the ten most recent presses, archives the day's totals when the date
  changes, and writes one command message per known token.
*/
module Dispatcher {
  import opened Wrappers
  import opened Text
  import opened Buttons

  /** Length of the on-screen "recent moves" list. */
  const HistoryLimit: nat := 10

  /** The dispatcher's bookkeeping: per-button totals, recent presses, the day they belong to. */
  datatype Stats = Stats(counts: map<string, nat>, recent: seq<string>, currentDay: string)

  /** The state the program keeps at all times: a counter for every `BTN_MAP` key, at most ten recent presses. */
  predicate Valid(s: Stats) {
    s.counts.Keys == BtnMap.Keys && |s.recent| <= HistoryLimit
  }

  function ZeroCounts(): (c: map<string, nat>)
    ensures c.Keys == BtnMap.Keys
    ensures forall k :: k in c ==> c[k] == 0
  {
    map k | k in BtnMap :: 0
  }

  /** The bookkeeping of a new day: all counters 0, no recent presses. */
  function Fresh(day: string): (s: Stats)
    ensures Valid(s)
    ensures forall k :: k in s.counts ==> s.counts[k] == 0
    ensures s.recent == [] && s.currentDay == day
  {
    Stats(ZeroCounts(), [], day)
  }

  /**
    Append a press to the recent list and drop the oldest entry once the list
    is longer than ten: the result is a suffix of the old list plus the new
    press, ends with the new press, and never exceeds ten entries.
  */
  function PushRecent(recent: seq<string>, name: string): (r: seq<string>)
    ensures 0 < |r| && r[|r| - 1] == name
    ensures |recent| <= HistoryLimit ==> |r| == Min(|recent| + 1, HistoryLimit)
    ensures |r| <= |recent| + 1 && r == (recent + [name])[|recent| + 1 - |r|..]
  {
    var longer := recent + [name];
    if |longer| > HistoryLimit then longer[1..] else longer
  }

  function Min(a: nat, b: nat): nat {
    if a <= b then a else b
  }

  /** A known press: its own counter goes up by one and it joins the recent list. */
  function Record(s: Stats, name: string): (r: Stats)
    requires Valid(s) && name in BtnMap
    ensures Valid(r)
    ensures r.counts[name] == s.counts[name] + 1
    ensures forall k :: k in s.counts && k != name ==> r.counts[k] == s.counts[k]
    ensures r.recent == PushRecent(s.recent, name) && r.currentDay == s.currentDay
  {
    assert s.counts[name := s.counts[name] + 1].Keys == s.counts.Keys;
    Stats(s.counts[name := s.counts[name] + 1], PushRecent(s.recent, name), s.currentDay)
  }

  // ---------------------------------------------------------------------------
  // The archive row: counters in key order, positive ones only.

  type Entry = (string, nat)

  /** The counter items in dict order (the insertion order of `BTN_MAP`). */
  function Items(keys: seq<string>, counts: map<string, nat>): (items: seq<Entry>)
    requires forall i :: 0 <= i < |keys| ==> keys[i] in counts
    ensures |items| == |keys|
    ensures forall i :: 0 <= i < |keys| ==> items[i] == (keys[i], counts[keys[i]])
  {
    if |keys| == 0 then [] else [(keys[0], counts[keys[0]])] + Items(keys[1..], counts)
  }

  predicate DistinctKeys(s: seq<Entry>) {
    forall i, j :: 0 <= i < j < |s| ==> s[i].0 != s[j].0
  }

  /** Keys strictly ascending in Python's string order. */
  predicate KeysAscending(s: seq<Entry>) {
    forall i, j :: 0 <= i < j < |s| ==> StrLe(s[i].0, s[j].0) && s[i].0 != s[j].0
  }

  /** Insert an entry with a new key into a list in ascending key order. */
  function Insert(x: Entry, s: seq<Entry>): (r: seq<Entry>)
    requires KeysAscending(s)
    requires forall i :: 0 <= i < |s| ==> s[i].0 != x.0
    ensures KeysAscending(r)
    ensures multiset(r) == multiset(s) + multiset{x}
    decreases |s|
  {
    if |s| == 0 then [x]
    else if StrLe(x.0, s[0].0) then
      InsertFront(x, s);
      [x] + s
    else
      StrLeTotal(x.0, s[0].0);
      var rest := Insert(x, s[1..]);
      assert s == [s[0]] + s[1..];
      InsertBehind(s[0], x, s[1..], rest);
      [s[0]] + rest
  }

  lemma InsertFront(x: Entry, s: seq<Entry>)
    requires KeysAscending(s) && 0 < |s| && StrLe(x.0, s[0].0)
    requires forall i :: 0 <= i < |s| ==> s[i].0 != x.0
    ensures KeysAscending([x] + s)
  {
    forall j | 0 <= j < |s|
      ensures StrLe(x.0, s[j].0)
    {
      if j > 0 {
        StrLeTransitive(x.0, s[0].0, s[j].0);
      }
    }
  }

  lemma InsertBehind(head: Entry, x: Entry, tail: seq<Entry>, rest: seq<Entry>)
    requires KeysAscending([head] + tail) && KeysAscending(rest)
    requires StrLe(head.0, x.0) && head.0 != x.0
    requires multiset(rest) == multiset(tail) + multiset{x}
    ensures KeysAscending([head] + rest)
  {
    var s := [head] + tail;
    forall i | 0 <= i < |rest|
      ensures StrLe(head.0, rest[i].0) && head.0 != rest[i].0
    {
      assert rest[i] in multiset(rest);
      if rest[i] != x {
        assert rest[i] in multiset(tail);
        var k :| 0 <= k < |tail| && tail[k] == rest[i];
        assert s[0] == head && s[k + 1] == rest[i];
        assert StrLe(s[0].0, s[k + 1].0) && s[0].0 != s[k + 1].0;
      }
    }
  }

  /** `sorted(items, key=lambda x: x[0])` for items with distinct keys. */
  function SortByKey(s: seq<Entry>): (r: seq<Entry>)
    requires DistinctKeys(s)
    ensures KeysAscending(r)
    ensures multiset(r) == multiset(s)
    decreases |s|
  {
    if |s| == 0 then []
    else
      var rest := SortByKey(s[1..]);
      SortedKeysAreOld(s, rest);
      assert s == [s[0]] + s[1..];
      Insert(s[0], rest)
  }

  lemma SortedKeysAreOld(s: seq<Entry>, rest: seq<Entry>)
    requires DistinctKeys(s) && 0 < |s|
    requires multiset(rest) == multiset(s[1..])
    ensures forall i :: 0 <= i < |rest| ==> rest[i].0 != s[0].0
  {
    forall i | 0 <= i < |rest|
      ensures rest[i].0 != s[0].0
    {
      assert rest[i] in multiset(s[1..]);
      var k :| 0 <= k < |s[1..]| && s[1..][k] == rest[i];
      assert s[k + 1] == rest[i];
    }
  }

  /** The items with a positive count, in the same order. */
  function Positive(s: seq<Entry>): (r: seq<Entry>)
    ensures forall i :: 0 <= i < |r| ==> r[i] in s && r[i].1 > 0
    ensures forall i :: 0 <= i < |s| && s[i].1 > 0 ==> s[i] in r
    decreases |s|
  {
    if |s| == 0 then []
    else if s[0].1 > 0 then [s[0]] + Positive(s[1..])
    else Positive(s[1..])
  }

  /** The filter keeps each positive entry exactly as often as it occurs and drops the rest. */
  lemma {:induction false} PositiveMultiplicity(s: seq<Entry>)
    ensures forall e :: multiset(Positive(s))[e] == if e.1 > 0 then multiset(s)[e] else 0
    decreases |s|
  {
    if |s| > 0 {
      PositiveMultiplicity(s[1..]);
      assert s == [s[0]] + s[1..];
    }
  }

  /** Dropping entries keeps the keys ascending. */
  lemma {:induction false} PositiveAscending(s: seq<Entry>)
    requires KeysAscending(s)
    ensures KeysAscending(Positive(s))
    decreases |s|
  {
    if |s| > 0 {
      var rest := Positive(s[1..]);
      assert KeysAscending(s[1..]);
      PositiveAscending(s[1..]);
      if s[0].1 > 0 {
        forall i | 0 <= i < |rest|
          ensures StrLe(s[0].0, rest[i].0) && s[0].0 != rest[i].0
        {
          var k :| 0 <= k < |s[1..]| && s[1..][k] == rest[i];
          assert s[k + 1] == rest[i];
        }
        ConsAscending(s[0], rest);
      }
    }
  }

  lemma ConsAscending(x: Entry, rest: seq<Entry>)
    requires KeysAscending(rest)
    requires forall i :: 0 <= i < |rest| ==> StrLe(x.0, rest[i].0) && x.0 != rest[i].0
    ensures KeysAscending([x] + rest)
  {
    var r := [x] + rest;
    forall i, j | 0 <= i < j < |r|
      ensures StrLe(r[i].0, r[j].0) && r[i].0 != r[j].0
    {
      if i > 0 {
        assert r[i] == rest[i - 1] && r[j] == rest[j - 1];
      } else {
        assert r[j] == rest[j - 1];
      }
    }
  }

  /**
    The buttons the archive row lists: exactly those with a positive count,
    each with its count, in ascending name order.
  */
  function ArchiveEntries(counts: map<string, nat>): (r: seq<Entry>)
    requires counts.Keys == BtnMap.Keys
    ensures KeysAscending(r)
    ensures forall i :: 0 <= i < |r| ==> r[i].0 in counts && r[i].1 == counts[r[i].0] && 0 < r[i].1
    ensures forall k :: k in counts && 0 < counts[k] ==> (k, counts[k]) in r
  {
    KeyOrderIsKeys();
    var items := Items(KeyOrder, counts);
    SortedItems(KeyOrder, counts, items);
    var sorted := SortByKey(items);
    SortedItems(KeyOrder, counts, sorted);
    PositiveAscending(sorted);
    Positive(sorted)
  }

  /** What sorting the counter items keeps: every item, and nothing else. */
  lemma SortedItems(keys: seq<string>, counts: map<string, nat>, sorted: seq<Entry>)
    requires forall k :: k in counts <==> k in keys
    requires forall i, j :: 0 <= i < j < |keys| ==> keys[i] != keys[j]
    requires multiset(sorted) == multiset(Items(keys, counts))
    ensures DistinctKeys(Items(keys, counts))
    ensures forall i :: 0 <= i < |sorted| ==> sorted[i].0 in counts && sorted[i].1 == counts[sorted[i].0]
    ensures forall k :: k in counts ==> (k, counts[k]) in sorted
  {
    var items := Items(keys, counts);
    forall i | 0 <= i < |sorted|
      ensures sorted[i].0 in counts && sorted[i].1 == counts[sorted[i].0]
    {
      assert sorted[i] in multiset(items);
      var j :| 0 <= j < |items| && items[j] == sorted[i];
    }
    forall k | k in counts
      ensures (k, counts[k]) in sorted
    {
      var i :| 0 <= i < |keys| && keys[i] == k;
      assert items[i] == (k, counts[k]);
      assert (k, counts[k]) in multiset(items);
    }
  }

  /** `f"{k}:{v}"` */
  function EntryText(e: Entry): (t: string)
    ensures |e.0| < |t| && t[..|e.0|] == e.0 && t[|e.0|] == ':'
    ensures AllDigits(t[|e.0| + 1..]) && ParseNat(t[|e.0| + 1..]) == e.1
  {
    var t := e.0 + ":" + NatToString(e.1);
    assert t[|e.0| + 1..] == NatToString(e.1);
    ParseNatToString(e.1);
    t
  }

  function EntryTexts(es: seq<Entry>): (ts: seq<string>)
    ensures |ts| == |es|
    ensures forall i :: 0 <= i < |es| ==> ts[i] == EntryText(es[i])
  {
    if |es| == 0 then [] else [EntryText(es[0])] + EntryTexts(es[1..])
  }

  /**
    The history line archived for a finished day: the day, then either the
    positive counters as "NAME:count" joined by ", " in name order, or
    "No moves" when every counter is zero.
  */
  function ArchiveRow(day: string, counts: map<string, nat>): (row: string)
    requires counts.Keys == BtnMap.Keys
    ensures (forall k :: k in counts ==> counts[k] == 0) ==> row == day + " | " + "No moves" + "\n"
    ensures (exists k :: k in counts && counts[k] > 0) ==>
              row == day + " | " + Join(EntryTexts(ArchiveEntries(counts)), ", ") + "\n"
  {
    var entries := ArchiveEntries(counts);
    var countsText := Join(EntryTexts(entries), ", ");
    JoinOfEntriesEmpty(entries);
    assert (exists k :: k in counts && counts[k] > 0) ==> 0 < |entries| by {
      if exists k :: k in counts && counts[k] > 0 {
        var k :| k in counts && counts[k] > 0;
        assert (k, counts[k]) in entries;
      }
    }
    day + " | " + (if countsText != "" then countsText else "No moves") + "\n"
  }

  /** The joined text is empty exactly when there is nothing to list. */
  lemma JoinOfEntriesEmpty(es: seq<Entry>)
    ensures Join(EntryTexts(es), ", ") == "" <==> |es| == 0
  {
    var ts := EntryTexts(es);
    if |es| == 1 {
      assert Join(ts, ", ") == EntryText(es[0]);
    } else if |es| > 1 {
      assert Join(ts, ", ") == ts[0] + ", " + Join(ts[1..], ", ");
    }
  }

  // ---------------------------------------------------------------------------
  // Day rollover and the per-token step.

  /**
    `check_day_rollover`: on a new date, archive the finished day's row and
    start the new day with zero counters and no recent presses; on the same
    date, change nothing.
  */
  function Rollover(s: Stats, today: string): (r: (Stats, Option<string>))
    requires Valid(s)
    ensures Valid(r.0)
    ensures today == s.currentDay ==> r == (s, None)
    ensures today != s.currentDay ==>
              r.1 == Some(ArchiveRow(s.currentDay, s.counts))
              && r.0.currentDay == today && r.0.recent == []
              && r.0.counts.Keys == BtnMap.Keys && forall k :: k in r.0.counts ==> r.0.counts[k] == 0
  {
    if today != s.currentDay then (Fresh(today), Some(ArchiveRow(s.currentDay, s.counts)))
    else (s, None)
  }

  datatype Dispatched = Dispatched(stats: Stats, wire: Option<seq<char>>, archived: Option<string>)

  /**
    One token from the button queue, on date `today`. An unknown token (such
    as the hourly "SAVE") changes nothing, archives nothing and sends
    nothing. A known token is counted and remembered first; then the date is
    checked, so on a new date the row archived for the old day includes this
    press and the new day starts empty. Its message is sent either way.
  */
  function Dispatch(s: Stats, name: string, today: string): (r: Dispatched)
    requires Valid(s)
    ensures Valid(r.stats)
    ensures name !in BtnMap ==> r == Dispatched(s, None, None)
    ensures name in BtnMap ==> r.wire.Some? && Decode(r.wire.value) == Some(name)
    ensures name in BtnMap && today == s.currentDay ==>
              r.archived == None
              && r.stats.counts[name] == s.counts[name] + 1
              && (forall k :: k in s.counts && k != name ==> r.stats.counts[k] == s.counts[k])
              && r.stats.recent == PushRecent(s.recent, name)
              && r.stats.currentDay == s.currentDay
    ensures name in BtnMap && today != s.currentDay ==>
              r.stats == Fresh(today)
              && r.archived == Some(ArchiveRow(s.currentDay, s.counts[name := s.counts[name] + 1]))
  {
    match Encode(name)
    case None => Dispatched(s, None, None)
    case Some(wire) =>
      DecodeEncode(name);
      var recorded := Record(s, name);
      var (next, row) := Rollover(recorded, today);
      Dispatched(next, Some(wire), row)
  }

  /** What the sender loop leaves behind: its state, the messages sent and the rows archived, in order. */
  datatype Sent = Sent(stats: Stats, wires: seq<seq<char>>, archived: seq<string>)

  /**
    The sender loop over a finite run of queued tokens, all on one date. On
    the current day nothing is archived; `DispatchAllNewDay` says what
    happens on a new date.
  */
  function DispatchAll(s: Stats, names: seq<string>, today: string): (r: Sent)
    requires Valid(s)
    ensures Valid(r.stats)
    ensures today == s.currentDay ==> r.stats.currentDay == today && r.archived == []
    ensures |r.archived| <= 1
    decreases |names|
  {
    if |names| == 0 then Sent(s, [], [])
    else
      var d := Dispatch(s, names[0], today);
      var rest := DispatchAll(d.stats, names[1..], today);
      var row := if d.archived.Some? then [d.archived.value] else [];
      Sent(rest.stats, (if d.wire.Some? then [d.wire.value] else []) + rest.wires, row + rest.archived)
  }

  /** The queued tokens the sender acts on, in order. */
  function Known(names: seq<string>): (ks: seq<string>)
    ensures forall k :: k in ks <==> k in names && k in BtnMap
  {
    if |names| == 0 then []
    else (if names[0] in BtnMap then [names[0]] else []) + Known(names[1..])
  }

  /** The filter keeps every known token as often as it was queued, and drops every unknown one. */
  lemma {:induction false} KnownOccurrences(names: seq<string>, k: string)
    ensures Count(Known(names), k) == if k in BtnMap then Count(names, k) else 0
  {
    if |names| > 0 {
      KnownOccurrences(names[1..], k);
      var head := if names[0] in BtnMap then [names[0]] else [];
      CountAppend(head, Known(names[1..]), k);
    }
  }

  /**
    Nothing is lost or duplicated, whether or not the date changes: every
    known token is sent exactly once and in queue order, and nothing else is
    sent.
  */
  lemma {:induction false} DispatchAllSendsKnown(s: Stats, names: seq<string>, today: string)
    requires Valid(s)
    ensures |DispatchAll(s, names, today).wires| == |Known(names)|
    ensures forall i :: 0 <= i < |Known(names)| ==>
              Decode(DispatchAll(s, names, today).wires[i]) == Some(Known(names)[i])
    decreases |names|
  {
    DispatchAllWires(s, names, today);
    KnownWiresDecode(names);
  }

  /** The message of every known token, in queue order. */
  function KnownWires(names: seq<string>): seq<seq<char>> {
    if |names| == 0 then []
    else (if names[0] in BtnMap then [Encode(names[0]).value] else []) + KnownWires(names[1..])
  }

  /** The messages the loop sends do not depend on its state or the date. */
  lemma {:induction false} DispatchAllWires(s: Stats, names: seq<string>, today: string)
    requires Valid(s)
    ensures DispatchAll(s, names, today).wires == KnownWires(names)
    decreases |names|
  {
    if |names| > 0 {
      var next := SendStep(s, names, today);
      DispatchAllWires(next, names[1..], today);
    }
  }

  /** One step of the sender loop, as the sent messages see it. */
  lemma SendStep(s: Stats, names: seq<string>, today: string) returns (next: Stats)
    requires Valid(s) && 0 < |names|
    ensures Valid(next)
    ensures DispatchAll(s, names, today).wires
            == (if names[0] in BtnMap then [Encode(names[0]).value] else []) + DispatchAll(next, names[1..], today).wires
  {
    next := Dispatch(s, names[0], today).stats;
  }

  /** Each known token's message decodes back to it. */
  lemma {:induction false} KnownWiresDecode(names: seq<string>)
    ensures |KnownWires(names)| == |Known(names)|
    ensures forall i :: 0 <= i < |Known(names)| ==> Decode(KnownWires(names)[i]) == Some(Known(names)[i])
    decreases |names|
  {
    if |names| > 0 {
      KnownWiresDecode(names[1..]);
      if names[0] in BtnMap {
        DecodeEncode(names[0]);
        assert Known(names) == [names[0]] + Known(names[1..]);
        assert KnownWires(names) == [Encode(names[0]).value] + KnownWires(names[1..]);
      } else {
        assert Known(names) == Known(names[1..]);
        assert KnownWires(names) == KnownWires(names[1..]);
      }
    }
  }

  /**
    On a new date the first known token archives the old day's row, itself
    counted in, and moves the state to the new date, so exactly one row is
    archived iff some token is known; with no known token nothing changes.
  */
  lemma {:induction false} DispatchAllNewDay(s: Stats, names: seq<string>, today: string)
    requires Valid(s) && today != s.currentDay
    ensures |DispatchAll(s, names, today).archived| == 1 <==> |Known(names)| > 0
    ensures |Known(names)| == 0 ==> DispatchAll(s, names, today).stats == s
    ensures |Known(names)| > 0 ==>
              DispatchAll(s, names, today).stats.currentDay == today
              && DispatchAll(s, names, today).archived
                 == [ArchiveRow(s.currentDay, Record(s, Known(names)[0]).counts)]
    decreases |names|
  {
    if |names| > 0 {
      if names[0] in BtnMap {
        assert Known(names)[0] == names[0];
        NewDayKnownHead(s, names, today);
      } else {
        assert Known(names) == Known(names[1..]);
        assert DispatchAll(s, names, today) == DispatchAll(s, names[1..], today);
        DispatchAllNewDay(s, names[1..], today);
      }
    }
  }

  /** On a new date a known first token archives the old day's row at once, and the rest of the run stays on the new date. */
  lemma NewDayKnownHead(s: Stats, names: seq<string>, today: string)
    requires Valid(s) && today != s.currentDay && 0 < |names| && names[0] in BtnMap
    ensures DispatchAll(s, names, today).stats.currentDay == today
    ensures DispatchAll(s, names, today).archived == [ArchiveRow(s.currentDay, Record(s, names[0]).counts)]
  {
    var d := Dispatch(s, names[0], today);
    assert d.stats.currentDay == today;
    assert DispatchAll(d.stats, names[1..], today).archived == [];
  }

  /** Within one day each counter grows by exactly the number of its tokens in the queue. */
  lemma {:induction false} DispatchAllCounts(s: Stats, names: seq<string>, today: string)
    requires Valid(s) && today == s.currentDay
    ensures forall k :: k in BtnMap ==>
              DispatchAll(s, names, today).stats.counts[k] == s.counts[k] + Count(names, k)
    decreases |names|
  {
    if |names| > 0 {
      var d := Dispatch(s, names[0], today);
      DispatchAllCounts(d.stats, names[1..], today);
    }
  }

  /** Within one day the recent list holds the last (at most ten) known tokens. */
  lemma {:induction false} DispatchAllRecent(s: Stats, names: seq<string>, today: string)
    requires Valid(s) && today == s.currentDay
    ensures DispatchAll(s, names, today).stats.recent == LastAtMost(s.recent + Known(names), HistoryLimit)
    decreases |names|
  {
    if |names| == 0 {
      assert s.recent + Known(names) == s.recent;
    } else {
      var next := DispatchAllStep(s, names, today);
      DispatchAllRecent(next, names[1..], today);
      RecentStep(s.recent, names[0], Known(names[1..]), Known(names));
    }
  }

  /** The window of the last ten after one token equals the window over the token and the rest together. */
  lemma RecentStep(recent: seq<string>, name: string, later: seq<string>, known: seq<string>)
    requires |recent| <= HistoryLimit
    requires known == (if name in BtnMap then [name] else []) + later
    ensures LastAtMost((if name in BtnMap then PushRecent(recent, name) else recent) + later, HistoryLimit)
            == LastAtMost(recent + known, HistoryLimit)
  {
    if name in BtnMap {
      LastAtMostPush(recent, name, later);
      assert recent + known == recent + [name] + later;
    } else {
      assert known == later;
    }
  }

  /** One step of the sender loop within a day, as the recent list sees it. */
  lemma DispatchAllStep(s: Stats, names: seq<string>, today: string) returns (next: Stats)
    requires Valid(s) && today == s.currentDay && 0 < |names|
    ensures Valid(next) && next.currentDay == today
    ensures DispatchAll(s, names, today).stats == DispatchAll(next, names[1..], today).stats
    ensures next.recent == if names[0] in BtnMap then PushRecent(s.recent, names[0]) else s.recent
    ensures Known(names) == (if names[0] in BtnMap then [names[0]] else []) + Known(names[1..])
  {
    next := Dispatch(s, names[0], today).stats;
  }

  /** The last `n` entries of `s`, or all of them when there are fewer. */
  function LastAtMost(s: seq<string>, n: nat): (r: seq<string>)
    ensures |r| == Min(|s|, n)
  {
    if |s| <= n then s else s[|s| - n..]
  }

  lemma LastAtMostPush(recent: seq<string>, name: string, later: seq<string>)
    requires |recent| <= HistoryLimit
    ensures LastAtMost(PushRecent(recent, name) + later, HistoryLimit)
            == LastAtMost(recent + [name] + later, HistoryLimit)
  {
    var longer := recent + [name];
    if |longer| > HistoryLimit {
      assert longer[1..] + later == (longer + later)[1..];
    }
  }
}

=== FILE: feed.dfy ===
/**
  What the market feed delivers and what the aggregators derive from a closed
  window: decoded messages, the tick records built from them, and the window
  metrics (delta %, volatility, buy/sell split, largest trade, tick count)
  that the datafeed and coinbase mappers compute identically.
*/
module Feed {
  import opened Wrappers

  /** One numeric field of a decoded message, as `float(...)` sees it. */
  datatype Field = Absent | Num(v: real) | Junk

  /** A decoded feed message; `kind` is its "type" entry. */
  datatype Message = Message(kind: Option<string>, price: Field, lastSize: Field, side: Option<string>)

  /** One batched trade: price, last trade size and aggressor side. */
  datatype Tick = Tick(price: real, size: real, side: Option<string>)

  /** The result of one pull from the trade queue under a timeout. */
  datatype Pull = TimedOut | Pulled(msg: Message)

  /** `KeyError` for a missing entry, `ValueError`/`TypeError` from `float`. */
  datatype ParseError = MissingKey | NotANumber

  /**
    The tick record built from a message: `price` must be present and numeric,
    `last_size` defaults to 0 when absent, `side` is taken as is (absent is None).
  */
  function ParseTick(m: Message): (r: Result<Tick, ParseError>)
    ensures r.Ok? <==> m.price.Num? && !m.lastSize.Junk?
    ensures r == Err(MissingKey) <==> m.price.Absent?
    ensures r.Ok? ==> r.value.price == m.price.v && r.value.side == m.side
    ensures r.Ok? ==> r.value.size == (if m.lastSize.Absent? then 0.0 else m.lastSize.v)
  {
    match m.price
    case Absent => Err(MissingKey)
    case Junk => Err(NotANumber)
    case Num(p) =>
      match m.lastSize
      case Junk => Err(NotANumber)
      case Absent => Ok(Tick(p, 0.0, m.side))
      case Num(s) => Ok(Tick(p, s, m.side))
  }

  /** Only the exact side "buy" is a buy; "sell", anything else and None are not. */
  predicate IsBuy(t: Tick) {
    t.side == Some("buy")
  }

  /** `len([d for d in batch if d["side"] == "buy"])` */
  function CountBuys(batch: seq<Tick>): (n: nat)
    ensures n <= |batch|
  {
    if |batch| == 0 then 0 else (if IsBuy(batch[0]) then 1 else 0) + CountBuys(batch[1..])
  }

  /** The side field of every tick, in arrival order. */
  function Sides(batch: seq<Tick>): (sides: seq<Option<string>>)
    ensures |sides| == |batch|
    ensures forall i :: 0 <= i < |batch| ==> sides[i] == batch[i].side
  {
    if |batch| == 0 then [] else [batch[0].side] + Sides(batch[1..])
  }

  /** The buys are exactly the ticks whose side is the string "buy". */
  lemma {:induction false} CountBuysIsMultiplicity(batch: seq<Tick>)
    ensures CountBuys(batch) == multiset(Sides(batch))[Some("buy")]
  {
    if |batch| > 0 {
      CountBuysIsMultiplicity(batch[1..]);
      assert Sides(batch) == [batch[0].side] + Sides(batch[1..]);
    }
  }

  /** The ticks whose side is not "buy", counted directly. */
  function CountNonBuys(batch: seq<Tick>): (n: nat)
    ensures n + CountBuys(batch) == |batch|
  {
    if |batch| == 0 then 0 else (if IsBuy(batch[0]) then 0 else 1) + CountNonBuys(batch[1..])
  }

  function Prices(batch: seq<Tick>): (ps: seq<real>)
    ensures |ps| == |batch|
    ensures forall i :: 0 <= i < |batch| ==> ps[i] == batch[i].price
  {
    if |batch| == 0 then [] else [batch[0].price] + Prices(batch[1..])
  }

  function Sizes(batch: seq<Tick>): (ss: seq<real>)
    ensures |ss| == |batch|
    ensures forall i :: 0 <= i < |batch| ==> ss[i] == batch[i].size
  {
    if |batch| == 0 then [] else [batch[0].size] + Sizes(batch[1..])
  }

  /** Python's `max` of a non-empty sequence. */
  function MaxOf(xs: seq<real>): (m: real)
    requires 0 < |xs|
    ensures forall i :: 0 <= i < |xs| ==> xs[i] <= m
    ensures exists i :: 0 <= i < |xs| && xs[i] == m
  {
    if |xs| == 1 then xs[0]
    else
      var rest := MaxOf(xs[1..]);
      if xs[0] >= rest then xs[0] else rest
  }

  /** Python's `min` of a non-empty sequence. */
  function MinOf(xs: seq<real>): (m: real)
    requires 0 < |xs|
    ensures forall i :: 0 <= i < |xs| ==> m <= xs[i]
    ensures exists i :: 0 <= i < |xs| && xs[i] == m
  {
    if |xs| == 1 then xs[0]
    else
      var rest := MinOf(xs[1..]);
      if xs[0] <= rest then xs[0] else rest
  }

  /** Percentage change from `first` to `last`. */
  function DeltaPct(first: real, last: real): (d: real)
    requires first != 0.0
    ensures d * first == (last - first) * 100.0
  {
    var d := (last - first) / first * 100.0;
    assert d * first == (last - first) * 100.0 by {
      assert (last - first) / first * first == last - first;
    }
    d
  }

  /** `max(prices) - min(prices)`: the largest difference between two prices of the window. */
  function Volatility(batch: seq<Tick>): (v: real)
    requires 0 < |batch|
    ensures 0.0 <= v
    ensures forall i, j :: 0 <= i < |batch| && 0 <= j < |batch| ==> batch[i].price - batch[j].price <= v
    ensures exists i, j :: 0 <= i < |batch| && 0 <= j < |batch| && batch[i].price - batch[j].price == v
  {
    var prices := Prices(batch);
    var hi := MaxOf(prices);
    var lo := MinOf(prices);
    var i :| 0 <= i < |prices| && prices[i] == hi;
    var j :| 0 <= j < |prices| && prices[j] == lo;
    assert batch[i].price - batch[j].price == hi - lo;
    hi - lo
  }

  /** `max(d["size"] for d in batch)`: the largest trade size of the window. */
  function LargestTrade(batch: seq<Tick>): (m: real)
    requires 0 < |batch|
    ensures forall i :: 0 <= i < |batch| ==> batch[i].size <= m
    ensures exists i :: 0 <= i < |batch| && batch[i].size == m
  {
    var sizes := Sizes(batch);
    var m := MaxOf(sizes);
    var i :| 0 <= i < |sizes| && sizes[i] == m;
    assert batch[i].size == m;
    m
  }

  datatype Metrics = Metrics(delta: real, volatility: real, buys: nat, sells: nat, maxTrade: real, count: nat)

  /**
    `EmptyWindow` is the `IndexError` of `batch[0]` on an empty batch;
    `ZeroDivision` is the `ZeroDivisionError` of a first price of 0.
  */
  datatype MetricError = EmptyWindow | ZeroDivision

  /**
    The metrics of a closed window: delta % from the first to the last tick in
    arrival order, volatility as the highest minus the lowest price, buys and
    sells (everything that is not a buy), the largest trade size and the tick count.
  */
  function ComputeMetrics(batch: seq<Tick>): (r: Result<Metrics, MetricError>)
    ensures r == Err(EmptyWindow) <==> |batch| == 0
    ensures r == Err(ZeroDivision) <==> 0 < |batch| && batch[0].price == 0.0
    ensures r.Ok? ==> r.value.delta == DeltaPct(batch[0].price, batch[|batch| - 1].price)
    ensures r.Ok? ==> 0.0 <= r.value.volatility
    ensures r.Ok? ==> forall i, j :: 0 <= i < |batch| && 0 <= j < |batch| ==>
                        batch[i].price - batch[j].price <= r.value.volatility
    ensures r.Ok? ==> exists i, j :: 0 <= i < |batch| && 0 <= j < |batch| &&
                        batch[i].price - batch[j].price == r.value.volatility
    ensures r.Ok? ==> r.value.buys == CountBuys(batch) && r.value.sells == CountNonBuys(batch)
    ensures r.Ok? ==> r.value.buys + r.value.sells == r.value.count == |batch|
    ensures r.Ok? ==> (forall i :: 0 <= i < |batch| ==> batch[i].size <= r.value.maxTrade)
                      && (exists i :: 0 <= i < |batch| && batch[i].size == r.value.maxTrade)
  {
    if |batch| == 0 then Err(EmptyWindow)
    else
      var first := batch[0].price;
      var last := batch[|batch| - 1].price;
      if first == 0.0 then Err(ZeroDivision)
      else
        var buys := CountBuys(batch);
        var m := Metrics(
          delta := DeltaPct(first, last),
          volatility := Volatility(batch),
          buys := buys,
          sells := |batch| - buys,
          maxTrade := LargestTrade(batch),
          count := |batch|);
        Ok(m)
  }
}

=== FILE: main_mapper.dfy ===
/**
  The first aggregator (`logic_mapper` and `send_to_mgba` in main.py):
  five-second windows (`window` is 5.0 there) of ticker messages reduced to the price change, turned
  into A and START presses and sent as one comma-separated message per
  window. Only the pull timeout is caught, so a ticker message without a
  numeric price or without a side stops the mapper loop.
*/
module MainMapper {
  import opened Wrappers
  import opened Feed
  import opened Buttons
  import opened Text

  /** The record this aggregator batches: price and side only. */
  datatype Quote = Quote(price: real, side: string)

  /** `{"price": float(data["price"]), "side": data["side"]}`: the price is read first. */
  function ParseQuote(m: Message): (r: Result<Quote, ParseError>)
    ensures r.Ok? <==> m.price.Num? && m.side.Some?
    ensures r.Ok? ==> r.value == Quote(m.price.v, m.side.value)
    ensures r == Err(NotANumber) <==> m.price.Junk?
  {
    match m.price
    case Absent => Err(MissingKey)
    case Junk => Err(NotANumber)
    case Num(p) =>
      match m.side
      case None => Err(MissingKey)
      case Some(side) => Ok(Quote(p, side))
  }

  predicate IsTicker(m: Message) {
    m.kind == Some("ticker")
  }

  /**
    The batch after one pull: only ticker messages enter it; a timeout or any
    other message type leaves it unchanged; a ticker message that cannot be
    read stops the mapper loop.
  */
  function Collect(batch: seq<Quote>, pull: Pull): (r: Result<seq<Quote>, ParseError>)
    ensures pull.TimedOut? || !IsTicker(pull.msg) ==> r == Ok(batch)
    ensures pull.Pulled? && IsTicker(pull.msg) ==> (r.Ok? <==> ParseQuote(pull.msg).Ok?)
    ensures pull.Pulled? && IsTicker(pull.msg) && r.Ok? ==> r.value == batch + [ParseQuote(pull.msg).value]
  {
    match pull
    case TimedOut => Ok(batch)
    case Pulled(msg) =>
      if IsTicker(msg) then
        match ParseQuote(msg)
        case Ok(q) => Ok(batch + [q])
        case Err(e) => Err(e)
      else Ok(batch)
  }

  /** The price change over a window: last arrival minus first arrival. */
  function Change(batch: seq<Quote>): (change: real)
    requires 0 < |batch|
    ensures batch[0].price + change == batch[|batch| - 1].price
    ensures change > 0.0 <==> batch[|batch| - 1].price > batch[0].price
  {
    batch[|batch| - 1].price - batch[0].price
  }

  /**
    A on a rise, then START. The `else` belongs to the `change < 0` test, so
    START is pressed exactly once whatever the sign of the change.
  */
  function Rules(change: real): (r: seq<Button>)
    ensures Count(r, Start) == 1
    ensures A in r <==> change > 0.0
    ensures A in r ==> r == [A, Start]
    ensures A !in r ==> r == [Start]
  {
    var rise := if change > 0.0 then [A] else [];
    var fall := if change < 0.0 then [Start] else [Start];
    assert Count(rise + fall, Start) == Count(rise, Start) + Count(fall, Start) by {
      CountAppend(rise, fall, Start);
    }
    rise + fall
  }

  /**
    `send_to_mgba`: nothing for an empty list, otherwise the comma-join of the
    token names; splitting the message on commas gives the names back.
  */
  function SendToMgba(buttons: seq<Button>): (message: Option<string>)
    ensures message.None? <==> |buttons| == 0
    ensures message.Some? ==> Split(message.value, ',') == Names(buttons)
  {
    if |buttons| == 0 then None
    else
      var names := Names(buttons);
      forall i | 0 <= i < |names|
        ensures ',' !in names[i]
      {
        NamesHaveNoComma(buttons[i]);
      }
      SplitJoin(names, ',');
      Some(Join(names, [',']))
  }

  /** The aggregator's loop state: the open batch and when it was opened. */
  datatype Mapper = Mapper(batch: seq<Quote>, lastBatchTime: real)

  /** After one iteration: still running, with the message of a window closed in it, or crashed. */
  datatype Outcome = Running(next: Mapper, sent: Option<string>) | Crashed(reason: ParseError)

  /**
    One loop iteration: pull (or time out), then the boundary check at `now`.
    At the boundary a non-empty window sends one message and an empty one
    sends nothing; either way the batch and timer are reset.
  */
  function Step(s: Mapper, pull: Pull, now: real, window: real): (r: Outcome)
    ensures Collect(s.batch, pull).Err? <==> r.Crashed?
    ensures r.Running? && now - s.lastBatchTime >= window ==>
              r.next == Mapper([], now)
              && (r.sent.Some? <==> 0 < |Collect(s.batch, pull).value|)
              && (r.sent.Some? ==> r.sent == SendToMgba(Rules(Change(Collect(s.batch, pull).value))))
    ensures r.Running? && now - s.lastBatchTime < window ==>
              r.next == Mapper(Collect(s.batch, pull).value, s.lastBatchTime) && r.sent.None?
  {
    match Collect(s.batch, pull)
    case Err(e) => Crashed(e)
    case Ok(batch) =>
      if now - s.lastBatchTime >= window then
        var sent := if |batch| > 0 then SendToMgba(Rules(Change(batch))) else None;
        Running(Mapper([], now), sent)
      else Running(Mapper(batch, s.lastBatchTime), None)
  }

  /** The message a closed non-empty window sends: "A,START" after a rise, "START" otherwise. */
  lemma WindowMessage(batch: seq<Quote>)
    requires 0 < |batch|
    ensures Change(batch) > 0.0 ==> SendToMgba(Rules(Change(batch))) == Some("A,START")
    ensures Change(batch) <= 0.0 ==> SendToMgba(Rules(Change(batch))) == Some("START")
  {
    var r := Rules(Change(batch));
    if Change(batch) > 0.0 {
      var names := Names(r);
      assert names == ["A", "START"];
      assert names[1..] == ["START"];
      assert Join(names, [',']) == "A" + [','] + "START";
      assert "A" + [','] + "START" == "A,START";
      assert SendToMgba(r) == Some(Join(names, [',']));
    } else {
      assert Names(r) == ["START"];
    }
  }
}

=== FILE: save_file.dfy ===
/**
  The party reader for a Pokémon LeafGreen save (read_gba_data.py): choose
  the save slot with the larger save index, read the party count from
  section 1 of that slot, and name the species of each party member. The
  file is given as its bytes; opening it and writing the report are not
  modelled.
*/
module SaveFile {
  import opened Wrappers
  import opened Text

  type Byte = b: int | 0 <= b < 256

  /** Start of the first and second 64 KiB save slot. */
  const SlotA: nat := 0x00000
  const SlotB: nat := 0x10000
  /** Offset of the save index inside a slot's first 4 KiB section. */
  const SaveIndexOffset: nat := 0x0FFC
  const SectionSize: nat := 0x1000
  /** Offsets inside section 1: the party count byte and the first party entry. */
  const PartyCountOffset: nat := 0x0034
  const PartyDataOffset: nat := 0x0038
  /** Bytes per party entry. */
  const PartyEntrySize: nat := 100
  const MaxParty: nat := 6

  function Pow256(n: nat): (p: nat)
    ensures 0 < p
  {
    if n == 0 then 1 else 256 * Pow256(n - 1)
  }

  /** `int.from_bytes(bs, "little")` */
  function LittleEndian(bs: seq<Byte>): (v: nat)
    ensures v < Pow256(|bs|)
  {
    if |bs| == 0 then 0 else bs[0] + 256 * LittleEndian(bs[1..])
  }

  /** The `n` little-endian bytes of `v`: the encoding `LittleEndian` reads. */
  function ToLittleEndian(v: nat, n: nat): (bs: seq<Byte>)
    ensures |bs| == n
  {
    if n == 0 then [] else [v % 256] + ToLittleEndian(v / 256, n - 1)
  }

  lemma {:induction false} LittleEndianRoundTrip(v: nat, n: nat)
    requires v < Pow256(n)
    ensures LittleEndian(ToLittleEndian(v, n)) == v
    decreases n
  {
    if n > 0 {
      LittleEndianRoundTrip(v / 256, n - 1);
      assert ToLittleEndian(v, n)[1..] == ToLittleEndian(v / 256, n - 1);
    }
  }

  lemma {:induction false} ToLittleEndianRoundTrip(bs: seq<Byte>)
    ensures ToLittleEndian(LittleEndian(bs), |bs|) == bs
    decreases |bs|
  {
    if |bs| > 0 {
      ToLittleEndianRoundTrip(bs[1..]);
      var v := LittleEndian(bs);
      assert v % 256 == bs[0] && v / 256 == LittleEndian(bs[1..]);
    }
  }

  lemma {:induction false} Pow256Monotone(m: nat, n: nat)
    requires m <= n
    ensures Pow256(m) <= Pow256(n)
    decreases n
  {
    if m < n {
      Pow256Monotone(m, n - 1);
    }
  }

  /** Python's `data[lo:hi]` for `lo <= hi`: cut short at the end of the data. */
  function Slice(data: seq<Byte>, lo: nat, hi: nat): (r: seq<Byte>)
    requires lo <= hi
    ensures |r| <= hi - lo
    ensures hi <= |data| ==> r == data[lo..hi]
    ensures lo < |data| ==> r == data[lo..if hi <= |data| then hi else |data|]
    ensures |data| <= lo ==> r == []
  {
    if |data| <= lo then [] else if |data| <= hi then data[lo..] else data[lo..hi]
  }

  /** The 4-byte little-endian save index of the slot starting at `slot`: a 32-bit value. */
  function SaveIndex(data: seq<Byte>, slot: nat): (v: nat)
    ensures v < 0x1_0000_0000
    ensures slot + SectionSize <= |data| ==>
              v == data[slot + 0x0FFC] as int + 0x100 * data[slot + 0x0FFD] as int
                   + 0x1_0000 * data[slot + 0x0FFE] as int + 0x100_0000 * data[slot + 0x0FFF] as int
  {
    var bytes := Slice(data, slot + SaveIndexOffset, slot + SectionSize);
    Pow256Monotone(|bytes|, 4);
    assert Pow256(4) == 0x1_0000_0000;
    assert slot + SectionSize <= |data| ==>
             LittleEndian(bytes) == data[slot + 0x0FFC] as int + 0x100 * data[slot + 0x0FFD] as int
               + 0x1_0000 * data[slot + 0x0FFE] as int + 0x100_0000 * data[slot + 0x0FFF] as int by {
      if slot + SectionSize <= |data| {
        assert bytes == data[slot + 0x0FFC..slot + 0x1000];
        LittleEndianFour(bytes);
      }
    }
    LittleEndian(bytes)
  }

  lemma LittleEndianFour(bs: seq<Byte>)
    requires |bs| == 4
    ensures LittleEndian(bs) == bs[0] as int + 0x100 * bs[1] as int + 0x1_0000 * bs[2] as int + 0x100_0000 * bs[3] as int
  {
    assert LittleEndian(bs[3..]) == bs[3] by {
      assert bs[3..][1..] == [];
    }
    assert bs[2..][1..] == bs[3..];
    assert bs[1..][1..] == bs[2..];
    assert LittleEndian(bs[2..]) == bs[2] + 0x100 * bs[3] as int;
    assert LittleEndian(bs[1..]) == bs[1] + 0x100 * bs[2] as int + 0x1_0000 * bs[3] as int;
  }

  /** `get_active_slot`: slot A when its save index is strictly larger, slot B otherwise (ties included). */
  function ActiveSlot(data: seq<Byte>): (base: nat)
    ensures base == SlotA || base == SlotB
    ensures base == SlotA <==> SaveIndex(data, SlotA) > SaveIndex(data, SlotB)
  {
    if SaveIndex(data, SlotA) > SaveIndex(data, SlotB) then SlotA else SlotB
  }

  /** The party count byte of the slot at `base`, in its section 1. */
  function PartyCountAddress(base: nat): (addr: nat)
    ensures base + SectionSize <= addr < base + 2 * SectionSize
  {
    base + SectionSize + PartyCountOffset
  }

  /** Where party member `i` starts; its species is that entry's first two bytes, inside section 1. */
  function SpeciesAddress(base: nat, i: nat): (addr: nat)
    requires i < MaxParty
    ensures PartyCountAddress(base) < addr
    ensures base + SectionSize <= addr && addr + 2 <= base + 2 * SectionSize
  {
    base + SectionSize + PartyDataOffset + i * PartyEntrySize
  }

  /** The 2-byte little-endian species id of party member `i`. */
  function SpeciesId(data: seq<Byte>, base: nat, i: nat): (id: nat)
    requires i < MaxParty
    ensures id < 0x1_0000
    ensures SpeciesAddress(base, i) + 2 <= |data| ==>
              id == data[SpeciesAddress(base, i)] as int + 0x100 * data[SpeciesAddress(base, i) + 1] as int
  {
    var addr := SpeciesAddress(base, i);
    var bytes := Slice(data, addr, addr + 2);
    Pow256Monotone(|bytes|, 2);
    assert addr + 2 <= |data| ==> LittleEndian(bytes) == data[addr] as int + 0x100 * data[addr + 1] as int by {
      if addr + 2 <= |data| {
        assert bytes == data[addr..addr + 2];
        assert bytes[1..][1..] == [];
      }
    }
    LittleEndian(bytes)
  }

  /** `POKEDEX`: the species ids the program can name. */
  const Pokedex: map<nat, string> :=
    map[0 := "Empty", 1 := "Bulbasaur", 2 := "Ivysaur", 3 := "Venusaur",
        4 := "Charmander", 5 := "Charmeleon", 6 := "Charizard",
        7 := "Squirtle", 8 := "Wartortle", 9 := "Blastoise",
        16 := "Pidgey", 19 := "Rattata", 25 := "Pikachu"]

  const UnknownPrefix: string := "ID: "

  /**
    `POKEDEX.get(species_id, f"ID: {species_id}")`: the Pokédex name, or the
    prefix "ID: " followed by the id's decimal digits.
  */
  function SpeciesName(id: nat): (name: string)
    ensures id in Pokedex ==> name == Pokedex[id]
    ensures id !in Pokedex ==>
              |name| > |UnknownPrefix| && name[..|UnknownPrefix|] == UnknownPrefix
              && AllDigits(name[|UnknownPrefix|..]) && ParseNat(name[|UnknownPrefix|..]) == id
  {
    if id in Pokedex then Pokedex[id]
    else
      var name := UnknownPrefix + NatToString(id);
      assert name[|UnknownPrefix|..] == NatToString(id);
      ParseNatToString(id);
      name
  }

  /** The reading of a name back to its species id. */
  function SpeciesOfName(name: string): Option<nat>
  {
    if HasUnknownPrefix(name) && AllDigits(name[|UnknownPrefix|..]) then
      Some(ParseNat(name[|UnknownPrefix|..]))
    else KnownSpecies(name)
  }

  predicate HasUnknownPrefix(name: string)
  {
    |name| > |UnknownPrefix| && name[..|UnknownPrefix|] == UnknownPrefix
  }

  function KnownSpecies(name: string): Option<nat>
  {
    if name == "Empty" then Some(0)
    else if name == "Bulbasaur" then Some(1)
    else if name == "Ivysaur" then Some(2)
    else if name == "Venusaur" then Some(3)
    else if name == "Charmander" then Some(4)
    else if name == "Charmeleon" then Some(5)
    else if name == "Charizard" then Some(6)
    else if name == "Squirtle" then Some(7)
    else if name == "Wartortle" then Some(8)
    else if name == "Blastoise" then Some(9)
    else if name == "Pidgey" then Some(16)
    else if name == "Rattata" then Some(19)
    else if name == "Pikachu" then Some(25)
    else None
  }

  /** Every species name reads back to its id, so different species never share a name. */
  lemma SpeciesNameRoundTrip(id: nat)
    ensures SpeciesOfName(SpeciesName(id)) == Some(id)
  {
    if id in Pokedex {
      KnownNameRoundTrip(id);
    } else {
      var name := SpeciesName(id);
      assert name[..|UnknownPrefix|] == UnknownPrefix;
      assert name[|UnknownPrefix|..] == NatToString(id);
      ParseNatToString(id);
    }
  }

  lemma KnownNameRoundTrip(id: nat)
    requires id in Pokedex
    ensures !HasUnknownPrefix(Pokedex[id])
    ensures KnownSpecies(Pokedex[id]) == Some(id)
  {
    var name := Pokedex[id];
    assert name[1] != 'D';
  }

  lemma SpeciesNameInjective(a: nat, b: nat)
    ensures SpeciesName(a) == SpeciesName(b) ==> a == b
  {
    SpeciesNameRoundTrip(a);
    SpeciesNameRoundTrip(b);
  }

  /** What reading the party gives. */
  datatype PartyRead =
    | Party(names: seq<string>)   // 1 to 6 members, named in slot order
    | NoParty(count: Byte)        // the count byte is 0 or above 6
    | CountOutOfRange             // the count byte lies past the end of the data (`IndexError`)

  /** The names of party members `0 .. count-1`, in slot order. */
  function PartyNames(data: seq<Byte>, base: nat, count: nat): (names: seq<string>)
    requires count <= MaxParty
    ensures |names| == count
    ensures forall k :: 0 <= k < count ==> names[k] == SpeciesName(SpeciesId(data, base, k))
  {
    if count == 0 then []
    else PartyNames(data, base, count - 1) + [SpeciesName(SpeciesId(data, base, count - 1))]
  }

  /**
    The parsing part of `pull_party_data`: the count byte of the active slot
    decides whether a party is read; if it is 1 to 6, the party has exactly
    that many names, member `i` named after its species id.
  */
  method PullParty(data: seq<Byte>) returns (r: PartyRead)
    ensures r.CountOutOfRange? <==> |data| <= PartyCountAddress(ActiveSlot(data))
    ensures r.NoParty? <==> PartyCountAddress(ActiveSlot(data)) < |data|
                            && !(0 < data[PartyCountAddress(ActiveSlot(data))] <= MaxParty)
    ensures r.Party? ==> |r.names| == data[PartyCountAddress(ActiveSlot(data))] && 1 <= |r.names| <= MaxParty
    ensures r.Party? ==> forall i :: 0 <= i < |r.names| ==>
              r.names[i] == SpeciesName(SpeciesId(data, ActiveSlot(data), i))
  {
    var base := ActiveSlot(data);
    var countAddr := PartyCountAddress(base);
    if countAddr >= |data| {
      return CountOutOfRange;
    }
    var count := data[countAddr];
    if !(0 < count <= MaxParty) {
      return NoParty(count);
    }
    return Party(PartyNames(data, base, count));
  }

  /** The text written to the daily party report: a date line, then one name per line. */
  function Report(timestamp: string, names: seq<string>): (report: string)
    ensures '\n' !in timestamp ==> Split(report, '\n')[0] == "DATE: " + timestamp
  {
    var header := "DATE: " + timestamp;
    assert '\n' !in timestamp ==> Split(header + ['\n'] + Join(names, "\n"), '\n')[0] == header by {
      if '\n' !in timestamp {
        assert forall k :: 0 <= k < |header| ==> header[k] != '\n' by {
          forall k | 0 <= k < |header| ensures header[k] != '\n' {
            if k >= 6 {
              assert header[k] == timestamp[k - 6];
            }
          }
        }
        SplitAfterPiece(header, '\n', Join(names, "\n"));
      }
    }
    header + "\n" + Join(names, "\n")
  }

  /** No species name spans a line break. */
  lemma SpeciesNameIsOneLine(id: nat)
    ensures '\n' !in SpeciesName(id)
  {
    if id in Pokedex {
      var name := Pokedex[id];
      assert forall k :: 0 <= k < |name| ==> name[k] != '\n';
    } else {
      var digits := NatToString(id);
      assert forall k :: 0 <= k < |digits| ==> IsDigit(digits[k]);
      assert SpeciesName(id) == UnknownPrefix + digits;
    }
  }

  /**
    Reading the report back line by line gives the date line and then the
    party, in order; with no names the text ends in the date line's newline,
    which reads as one empty line.
  */
  lemma ReportLines(timestamp: string, names: seq<string>)
    requires '\n' !in timestamp
    requires forall i :: 0 <= i < |names| ==> exists id: nat :: names[i] == SpeciesName(id)
    ensures Split(Report(timestamp, names), '\n') == ["DATE: " + timestamp] + (if |names| == 0 then [""] else names)
  {
    var header := "DATE: " + timestamp;
    assert Report(timestamp, names) == header + ['\n'] + Join(names, "\n");
    SplitAfterPiece(header, '\n', Join(names, "\n"));
    if |names| == 0 {
      SplitFree("", '\n');
    } else {
      forall i | 0 <= i < |names|
        ensures '\n' !in names[i]
      {
        var id: nat :| names[i] == SpeciesName(id);
        SpeciesNameIsOneLine(id);
      }
      SplitJoin(names, '\n');
    }
  }
}

=== FILE: text.dfy ===
/**
  String helpers the program relies on through Python built-ins:
  decimal rendering of integers (`str(n)` / f-strings), `sep.join(parts)`,
  `s.split(c)`, and the ordering `<` on `str` that `sorted` uses.
*/
module Text {

  predicate IsDigit(c: char) {
    '0' <= c <= '9'
  }

  predicate AllDigits(s: string) {
    forall i :: 0 <= i < |s| ==> IsDigit(s[i])
  }

  function DigitChar(d: nat): (c: char)
    requires d < 10
    ensures IsDigit(c)
    ensures c as int - '0' as int == d
  {
    ('0' as int + d) as char
  }

  /** Decimal rendering of a natural number, as Python's `str(n)`. */
  function NatToString(n: nat): (s: string)
    ensures 0 < |s|
    ensures AllDigits(s)
    decreases n
  {
    if n < 10 then [DigitChar(n)] else NatToString(n / 10) + [DigitChar(n % 10)]
  }

  /** Value of a string of decimal digits; the reading that `NatToString` inverts. */
  function ParseNat(s: string): nat
    requires AllDigits(s)
  {
    if |s| == 0 then 0
    else ParseNat(s[..|s| - 1]) * 10 + (s[|s| - 1] as int - '0' as int)
  }

  lemma {:induction false} ParseNatToString(n: nat)
    ensures ParseNat(NatToString(n)) == n
    decreases n
  {
    var s := NatToString(n);
    if n >= 10 {
      ParseNatToString(n / 10);
      assert s[..|s| - 1] == NatToString(n / 10);
    }
  }

  /** Different numbers never render to the same text. */
  lemma NatToStringInjective(a: nat, b: nat)
    ensures NatToString(a) == NatToString(b) ==> a == b
  {
    ParseNatToString(a);
    ParseNatToString(b);
  }

  /** Python's `sep.join(parts)`. */
  function Join(parts: seq<string>, sep: string): string
  {
    if |parts| == 0 then ""
    else if |parts| == 1 then parts[0]
    else parts[0] + sep + Join(parts[1..], sep)
  }

  /** Python's `s.split(c)` for a one-character separator `c`. */
  function Split(s: string, c: char): (pieces: seq<string>)
    ensures 0 < |pieces|
    decreases |s|
  {
    if |s| == 0 then [""]
    else if s[0] == c then [""] + Split(s[1..], c)
    else
      var rest := Split(s[1..], c);
      [[s[0]] + rest[0]] + rest[1..]
  }

  lemma {:induction false} SplitFree(s: string, c: char)
    requires c !in s
    ensures Split(s, c) == [s]
    decreases |s|
  {
    if |s| > 0 {
      SplitFree(s[1..], c);
      assert [s[0]] + s[1..] == s;
    }
  }

  lemma {:induction false} SplitAfterPiece(a: string, c: char, b: string)
    requires c !in a
    ensures Split(a + [c] + b, c) == [a] + Split(b, c)
    decreases |a|
  {
    if |a| == 0 {
      assert a + [c] + b == [c] + b;
      assert ([c] + b)[1..] == b;
    } else {
      SplitAfterPiece(a[1..], c, b);
      assert (a + [c] + b)[1..] == a[1..] + [c] + b;
      assert [a[0]] + a[1..] == a;
    }
  }

  /**
    Splitting a joined list on the separator gives the list back, provided the
    list is non-empty and no element contains the separator.
  */
  lemma {:induction false} SplitJoin(parts: seq<string>, c: char)
    requires 0 < |parts|
    requires forall i :: 0 <= i < |parts| ==> c !in parts[i]
    ensures Split(Join(parts, [c]), c) == parts
    decreases |parts|
  {
    if |parts| == 1 {
      SplitFree(parts[0], c);
    } else {
      SplitJoin(parts[1..], c);
      SplitAfterPiece(parts[0], c, Join(parts[1..], [c]));
      assert [parts[0]] + parts[1..] == parts;
    }
  }

  /** Python's `a <= b` on `str`: lexicographic by code point, a prefix first. */
  predicate StrLe(a: string, b: string)
    decreases |a|
  {
    |a| == 0 || (0 < |b| && (a[0] < b[0] || (a[0] == b[0] && StrLe(a[1..], b[1..]))))
  }

  lemma {:induction false} StrLeTotal(a: string, b: string)
    ensures StrLe(a, b) || StrLe(b, a)
    decreases |a|
  {
    if 0 < |a| && 0 < |b| && a[0] == b[0] {
      StrLeTotal(a[1..], b[1..]);
    }
  }

  lemma {:induction false} StrLeTransitive(a: string, b: string, c: string)
    requires StrLe(a, b) && StrLe(b, c)
    ensures StrLe(a, c)
    decreases |a|
  {
    if 0 < |a| && a[0] == b[0] && b[0] == c[0] {
      StrLeTransitive(a[1..], b[1..], c[1..]);
    }
  }

  lemma {:induction false} StrLeAntisymmetric(a: string, b: string)
    requires StrLe(a, b) && StrLe(b, a)
    ensures a == b
    decreases |a|
  {
    if 0 < |a| {
      StrLeAntisymmetric(a[1..], b[1..]);
      assert a == [a[0]] + a[1..];
      assert b == [b[0]] + b[1..];
    }
  }
}

=== FILE: wrappers.dfy ===
/** Failure-carrying datatypes shared by every module of the model. */
module Wrappers {

  /** A value that may be missing: Python's `None` versus a present value. */
  datatype Option<+T> = None | Some(value: T)

  /** The outcome of an operation that can raise: `Err` carries the exception. */
  datatype Result<+T, +E> = Ok(value: T) | Err(error: E)
}
